=== FILE: README.md ===
# Anechoic-chamber antenna-pattern acquisition, modelled in Dafny

The repository drives a turntable (a serial stepper-motor controller) and a
LibreVNA vector network analyser to measure an antenna's radiation pattern.
It has two scripts. `antenna_pattern.py` holds hard-coded settings. It turns
the device under test through 360 angles and records the S21 trace at each
one. `measure_funcs.py` is a library variant. It takes its settings from a
`.config` file of `key🐥value` lines.

This project models the logic of both scripts as pure functions:

- the readiness probe `motor_ready`;
- `move_motor`: the axis letter, the position query and the parsing of its
  reply, the same-revolution target arithmetic, the absolute move command
  `C E IA<id>M<pos>,R`, and the polling loop;
- `init_motors`;
- both variants of `measure_vals`: the nine setup commands, the wait for the
  sweep, and taking the value column of the parsed trace;
- the angle schedule and the acquisition loop of the main script;
- `load_configs`, with its bound checks.

Each serial or instrument link is a value. It holds the replies the other
side will give, in order, and the log of everything written or sent so far.
An operation returns the updated link. Every exception the code can raise on
its own (IndexError, KeyError, ValueError, ZeroDivisionError, TypeError) is
an `Error` value in a `Result`.

Modules, one per file:

| file | module | contents |
|---|---|---|
| results.dfy | `Results` | `Option`, `Result`, one `Error` per way the code aborts |
| text.dfy | `Text` | `str(int)`, `int(str)` with white space, `str.find` and `str.split` on one character, and their round trips |
| pyarith.dfy | `PyArith` | Python's floor `//` and `%` |
| serial_link.dfy | `SerialLink` | the motor line: write and readline (a read past the scripted replies yields `""`, as a pyserial timeout does) |
| motor_protocol.dfy | `MotorProtocol` | `motor_ready` and the body of `move_motor`, shared by both scripts |
| vna_link.dfy | `VnaLink` | `cmd`/`query` on the analyser, the sweep wait and the trace read shared by both `measure_vals` |
| antenna_pattern.dfy | `AntennaPattern` | the main script: constants, `move_motor`, `init_motors`, `measure_vals`, schedule, loop, start-up |
| measure_funcs.dfy | `MeasureFuncs` | the configuration-driven `move_motor` and `measure_vals`, and `load_configs` |

Where the two scripts' copies of a function are identical (`motor_ready`),
the table cites `measure_funcs.py`. The `antenna_pattern.py` copy is at
lines 29-43.

## Model

| member | source | states |
|---|---|---|
| Text.IntTextRoundTrip | measure_funcs.py:35 | the decimal text an f-string prints for any int reads back as that int under the signed-literal grammar `[+-]?[0-9]+` |
| Text.PyInt | measure_funcs.py:81 | `int()` succeeds iff the text is white space, an optional sign, at least one digit, then white space; the value is that signed literal; anything else raises ValueError naming the text |
| Text.PyIntPadded | measure_funcs.py:81 | `int()` reads `str(n)` back as `n` even with white space, such as the line's newline, before or after it |
| Text.Split | measure_funcs.py:75-77 | `split` returns at least one piece, exactly one iff the separator is absent, and no piece contains the separator; so the `var == []` break can never fire |
| Text.JoinSplit | measure_funcs.py:75 | splitting loses nothing: joining the pieces with the separator gives the line back |
| Text.SplitFields | measure_funcs.py:75 | for a key without the separator, piece 0 is the key and piece 1 runs from the first separator to the next |
| PyArith.PyMod | measure_funcs.py:31-33 | `a % b` satisfies `a == b * (a // b) + a % b`, and the remainder lies in `[0, b)` for `b > 0` and in `(b, 0]` for `b < 0` |
| PyArith.FloorDivUnique | measure_funcs.py:31-33 | any decomposition `a == b*q + m` with `m` in Python's remainder range is the one `//` and `%` compute |
| MotorProtocol.AxisLetter | measure_funcs.py:24-26 | `POS_CHECK[id]` succeeds iff `-5 <= id < 5`, as Python list indexing does; motors 1-4 get X, Y, Z, T; any other id raises IndexError |
| SerialLink.ReadLine | measure_funcs.py:28 | a read leaves the write log alone; with replies left it takes the next one whole, and with none it times out with the empty string |
| MotorProtocol.MotorReady | measure_funcs.py:6-20 | ready iff the replies start with `R`, or with `B` then `R`; writes `V`, plus `K` exactly after a `B`; uses at most two replies |
| MotorProtocol.MotorReadyWrites | measure_funcs.py:7-13 | the probe writes one or two strings: `V` first, `K` iff the first reply was `B`, and no `V` after the `K` |
| MotorProtocol.FirstToken | measure_funcs.py:29 | returns the leftmost index where `[+-]\d` matches at or after the start, or the text's length when there is none |
| MotorProtocol.DigitRun | measure_funcs.py:29 | the greedy `\d+`: every counted character is a digit, and the run stops at the end or at a non-digit |
| MotorProtocol.ParsePosition | measure_funcs.py:29 | `int(re.findall(r"[+-]\d+", read)[0])` on a reply with no match raises IndexError, reported with the reply |
| MotorProtocol.ParsePositionFails | measure_funcs.py:29 | the parse fails exactly when no signed-number token (`[+-]` then a digit) occurs anywhere in the reply |
| MotorProtocol.PositionRoundTrip | measure_funcs.py:29 | a reply of token-free text, a sign, a run of digits (zero padding included) and a non-digit suffix parses to that signed run's value |
| MotorProtocol.SignedPositionRoundTrip | measure_funcs.py:29 | in particular a position written as a sign and its decimal digits reads back as itself |
| MotorProtocol.NextPosition | measure_funcs.py:31-33 | `next_pos` is congruent to `pos` modulo the steps, stays in `current_pos`'s revolution (same floor quotient), and is less than one revolution from `current_pos` |
| MotorProtocol.MoveCommand | measure_funcs.py:35 | the controller decodes `C E IA<id>M<next>,R` back to exactly that id and target |
| MotorProtocol.ShortWritesNoMoves | measure_funcs.py:27 | position queries (one letter at most) never decode as move commands |
| MotorProtocol.Poll | measure_funcs.py:39-43 | returns at once if already there (compared with the raw `pos`). Otherwise the loop returns exactly when some run of readings ends on the first reading congruent to `pos`, every earlier one parsing to a position off `pos`. It then stops at that reading, returns it, leaves the replies after it, and has written one letter per reading. When there is no such run, it raises IndexError on the reply `StuckOn` names |
| MotorProtocol.StuckOn | measure_funcs.py:40-43 | when the polling loop finds no stop, the reply it fails on has no position token: the first unparsable reading before any congruent one, or the empty read once the replies run out |
| MotorProtocol.ConvergedAt | measure_funcs.py:39-43 | where a polling loop over given readings stops: a run of readings up to the first congruent one, each earlier reading parsing off `pos`; none when an unparsable reading or the end comes first |
| MotorProtocol.ConvergedAtFinds | measure_funcs.py:39-43 | any run of readings that would stop the loop is the run it stops at: the stopping point is unique |
| MotorProtocol.PollInstant | measure_funcs.py:39-43 | against a controller that reports the target on the next query, the loop does one query and stops |
| MotorProtocol.MoveMotorWith | measure_funcs.py:23-44 | bad axis raises IndexError, and an unreadable first reply raises IndexError. After a readable first reply, a failed `steps_per_rev` lookup raises that lookup's error, and a zero one raises ZeroDivisionError. When the start is not at `pos`, an unreadable or missing first polling reply (the third reply) raises IndexError. On success the modulus is non-zero and the start position is the first reply. The target keeps the start's revolution. The replies after the acknowledgement are the polling readings, all but the last not congruent to `pos`, the last congruent. The writes are the letter, the move command, then only letters, so exactly one move, `(id, next_pos)`, is sent. With a positive modulus and `pos` outside `[0, S)`, no finite run of replies lets the loop succeed |
| MotorProtocol.MoveSucceeds | measure_funcs.py:23-44 | with a valid axis and a non-zero modulus, a move returns exactly when the replies let it: a readable start, then either a start already at `pos` or an acknowledgement followed by readings that reach `pos`. It then leaves exactly the replies after those it read. Otherwise it raises IndexError on the reply `MoveStuck` names |
| MotorProtocol.MoveStuck | measure_funcs.py:26-43 | when a move does not return, the reply it fails on has no position token: the unreadable first reply, or the polling reading where the loop gets stuck |
| MotorProtocol.MovesMadeSnoc | antenna_pattern.py:133-134 | a run of moves followed by one more move, made from where the run left the link, is a run of moves over the extended lists |
| MotorProtocol.MovesLeaveAppend | antenna_pattern.py:66-68 | two runs of `move_motor` calls in a row return exactly when the first does and the second does from the replies the first leaves |
| MotorProtocol.MovesLeaveSnoc | antenna_pattern.py:133-134 | a run of moves and one more returns exactly when the run does and the last move then can, leaving what the last move leaves |
| VnaLink.SendCmds | measure_funcs.py:48-56 | `conn.cmd` for each line, in order: the send log grows by exactly those commands and no reply is consumed |
| VnaLink.Pending | measure_funcs.py:58-59 | counts the leading `FALSE` answers: all counted answers are `FALSE` and the next one is not |
| VnaLink.AwaitSweep | measure_funcs.py:58-59 | the wait ends iff some answer is not `FALSE`; it sends one `:VNA:ACQ:FIN?` per answer read, up to and including the first non-`FALSE` one |
| VnaLink.Values | measure_funcs.py:63-65 | the collected data is the second component of each parsed pair, in order |
| VnaLink.Acquire | measure_funcs.py:58-66 | succeeds iff the analyser answers the wait and the trace query. Then the data is the value column of the parsed trace reply, and the send log is the setup, the wait queries and `:VNA:TRACE:DATA? S21` |
| VnaLink.AcquisitionsSnoc | antenna_pattern.py:133-141 | the trace replies of n + 1 acquisitions in a row are those of the first n, then the next trace read from what they left |
| VnaLink.AcquisitionsPrefix | antenna_pattern.py:133-141 | if n + 1 acquisitions in a row are answered, so are the first n, and the instrument answers one more from what they leave |
| VnaLink.CommandLinesFields | measure_funcs.py:48-56 | each command line splits back into its keyword and its argument (none for a bare keyword) |
| AntennaPattern.MoveMotor | antenna_pattern.py:46-62 | with 14400 steps per revolution, success means `pos` is in `[0, 14400)`, the final and the commanded positions are `pos` modulo 14400, the target keeps the start's revolution, the polling readings are as for `move_motor` in general, and exactly one move command `(motor_id, next_pos)` is written after the letter. An invalid motor id raises IndexError. For a valid motor id the call returns exactly when the replies let it, and then leaves exactly the replies after those it read; otherwise it raises IndexError on the reply `MoveStuck` names. A start off `pos` with no readable third reply raises IndexError |
| AntennaPattern.InitMotors | antenna_pattern.py:65-70 | motor `i + 1` is moved to `pos_list[i]`, in list order, one move command each, each move made from where the one before left the link. Success needs at most four positions, each within one revolution. With at most four positions it returns exactly when the run of moves can, and leaves the replies that run leaves |
| AntennaPattern.InitFrom | antenna_pattern.py:66-68 | the loop from index `k` completes only with at most four positions, each within one revolution, and writes one move command per motor `k+1 ..`, congruent to `pos_list[k ..]`, in list order |
| AntennaPattern.InitMoveRun | antenna_pattern.py:66-68 | the moves of the loop from index `k` are one per position, motor `i + 1` to `pos_list[i]`, each with its readings and made from where the one before left the link, which ends where the last move left it |
| AntennaPattern.InitLeaves | antenna_pattern.py:66-68 | the loop from index `k` leaves the link with the replies the run of moves to `pos_list[k ..]` leaves |
| AntennaPattern.InitSucceeds | antenna_pattern.py:66-68 | with at most four positions, the loop from index `k` completes whenever the run of moves to `pos_list[k ..]` can |
| AntennaPattern.SetupCommands | antenna_pattern.py:74-82 | nine commands in the script's order (mode, sweep, level, IF bandwidth, averaging, points, start, stop, trigger), each splitting back into its keyword and its argument |
| AntennaPattern.SetupCommandsOrder | antenna_pattern.py:76-81 | the level, bandwidth, averaging and point arguments read back as the values passed in, and start and stop print as floats |
| AntennaPattern.MeasureVals | antenna_pattern.py:73-92 | succeeds iff the analyser answers the wait and the trace query. Then it returns the trace's value column, after sending exactly the setup with averaging 128, the wait queries and the trace query |
| AntennaPattern.AngleSchedule | antenna_pattern.py:132 | `floor(linspace(0, S, n, endpoint=False))` has `n` targets and starts at 0 |
| AntennaPattern.ScheduleInRange | antenna_pattern.py:132 | every scheduled target lies in `[0, S)` |
| AntennaPattern.ScheduleSpacing | antenna_pattern.py:132 | consecutive targets are `S // n` or `S // n + 1` apart, and exactly `i * (S // n)` when `n` divides `S` |
| AntennaPattern.ScheduleIncreasing | antenna_pattern.py:132 | with no more angles than steps the targets strictly increase |
| AntennaPattern.ScriptSchedule | antenna_pattern.py:132 | the script's schedule is 0, 40, 80, …, 14360: one degree per step |
| AntennaPattern.StoreRow | antenna_pattern.py:142 | `measurements[index, :] = data` stores a trace of the row's width as is, broadcasts a single value, and refuses any other length |
| AntennaPattern.SweepAngle | antenna_pattern.py:134-142 | one pass moves the DUT motor to the angle (one move command, congruent to the angle, with its polling readings) and reads exactly the replies that move needs. The row is the stored value column of the trace reply that follows the pending and finished answers, and the analyser keeps the replies after it. The pass completes when the move can and the trace is storable |
| AntennaPattern.Collect | antenna_pattern.py:133-143 | a completed loop holds one row and one move per angle |
| AntennaPattern.CollectWrites | antenna_pattern.py:133-134 | the moves a completed loop wrote go to the DUT motor, one command per angle, in schedule order, each congruent to its angle, and every row holds 3 values |
| AntennaPattern.CollectRows | antenna_pattern.py:133-142 | row i of a completed loop is the stored trace of the i-th acquisition, and the analyser keeps the replies after them |
| AntennaPattern.CollectMoveRun | antenna_pattern.py:133-134 | the moves of a completed loop are one DUT move per angle, in order, each with its readings and made from where the one before left the motor link, which ends where the last move left it |
| AntennaPattern.CollectLeaves | antenna_pattern.py:133-134 | a completed loop leaves the motor link with the replies the run of moves to the angles leaves |
| AntennaPattern.CollectSucceeds | antenna_pattern.py:133-143 | the loop completes exactly when every move's polling reaches its angle and every acquisition is answered with a trace that can be stored as a row |
| AntennaPattern.TracesPrefix | antenna_pattern.py:133-142 | storable traces for n + 1 acquisitions are storable traces for the first n, then one more storable trace |
| AntennaPattern.RowsExtend | antenna_pattern.py:133-143 | a further pass adds the next acquisition's stored trace as the next row |
| AntennaPattern.CollectedInRange | antenna_pattern.py:57-61 | the loop only gets past angles within one revolution |
| AntennaPattern.ConnectVna | antenna_pattern.py:105-112 | a `Not connected` answer aborts and any other answer proceeds, after `:DEV:CONN` and `:DEV:CONN?` were sent and one answer read |
| AntennaPattern.ReadyAndInit | antenna_pattern.py:123-127 | a motor that is not ready aborts. Otherwise motor 1 is moved to its initial position 0, from where the probe left the link. It completes exactly when the probe answers ready and that move can |
| AntennaPattern.Startup | antenna_pattern.py:105-127 | the instrument check comes first and wins; then the motor probe; on success both links are initialised as above. It completes exactly when the instrument is connected, the probe answers ready and the initial move can |
| AntennaPattern.Run | antenna_pattern.py:105-143 | a completed acquisition is a 360 × 3 matrix from a motor that answered the probe. Row i is the stored trace of the i-th acquisition after the connection answer. The motor was sent motor 1's initial move, then one move of the DUT motor per scheduled angle, in order, each from where the one before left the link. The run completes when the instrument is connected, the probe answers ready, the initial and scheduled moves can all run in turn, and every acquisition gives a storable trace |
| MeasureFuncs.IntSetting | measure_funcs.py:26-33 | `config[key]` where an int is needed succeeds iff the key is present with an int value; a missing key raises KeyError |
| MeasureFuncs.MoveMotor | measure_funcs.py:23-44 | a missing or non-int `motor_dut` raises its lookup error, and an id outside the axis list raises IndexError. After a readable first reply, a failed `steps_per_rev` lookup raises its error, and a zero one raises ZeroDivisionError. On success both settings are ints and `steps_per_rev` is non-zero. The polling readings and the writes are as for `move_motor` in general: the final position is congruent to `pos`, the target keeps the start's revolution, the first write is the motor's letter, and the only move sent is `(motor_dut, next_pos)`. With a positive `steps_per_rev`, an out-of-range `pos` never succeeds. With a valid axis and a non-zero modulus, it returns exactly when the replies let it, leaving exactly the replies after those it read; otherwise it raises IndexError on the reply `MoveStuck` names |
| MeasureFuncs.LookupAll | measure_funcs.py:50-54 | the f-string values succeed iff every key is present, each printed from its setting; otherwise KeyError names the first missing key |
| MeasureFuncs.SetupCommands | measure_funcs.py:48-56 | the setup fails exactly when one of `stim_pwr`, `if_bandwidth`, `pts_1`, `pts_2`, `freq` is missing, naming the first missing one; otherwise nine commands in the script's order, the zero-span command bare and every other argument the printed setting |
| MeasureFuncs.SetupCommandsOrder | measure_funcs.py:50-54 | each int setting's argument reads back as the configured value |
| MeasureFuncs.MeasureVals | measure_funcs.py:47-66 | a missing setting raises before anything is awaited. Otherwise it succeeds iff the analyser answers the wait and the trace query, and returns the trace's value column after exactly the setup, the wait queries and the trace query |
| MeasureFuncs.RemoveSpaces | measure_funcs.py:79 | `replace(" ", "")` leaves no space, keeps every other character with its multiplicity, is the identity on space-free text, and drops a lone space and keeps any other lone character |
| MeasureFuncs.RemoveSpacesAppend | measure_funcs.py:79 | removing spaces works piece by piece, so the characters kept stay in their order |
| MeasureFuncs.InBounds | measure_funcs.py:82-93 | a value fails the checks exactly when one of the six ValueError conditions holds for its key; keys other than the six are never checked |
| MeasureFuncs.ParseLine | measure_funcs.py:75-93 | a line without the separator raises IndexError. A parsed line is a valid entry: text only for `vna_path`, and in bounds for the six checked keys. Its key holds no separator, and a path holds no space. For any other key, a value that is not a padded integer literal raises ValueError naming it, and a literal is stored if in bounds and raises ValueError for the key otherwise |
| MeasureFuncs.IntLineRoundTrip | measure_funcs.py:81-93 | a `key🐥 n ` line with blanks around the number parses to `(key, n)` when `n` is within the key's bounds, and raises ValueError for that key otherwise |
| MeasureFuncs.PathLineRoundTrip | measure_funcs.py:78-79 | a `vna_path` line keeps everything after the separator, spaces removed and the newline kept |
| MeasureFuncs.ReadUntilEnd | measure_funcs.py:73-74 | the loop reads a prefix of the `readline()` results, containing no empty read, and stops at the first empty read |
| MeasureFuncs.Store | measure_funcs.py:94 | the dictionary's keys are exactly the entries' keys, and valid entries give a valid configuration |
| MeasureFuncs.LastEntryWins | measure_funcs.py:94 | the last entry that names a key decides its value |
| MeasureFuncs.LoadLines | measure_funcs.py:74-95 | succeeds iff every line read parses, yielding the parsed entries in order; otherwise it raises the error of the first bad line |
| MeasureFuncs.LoadConfigs | measure_funcs.py:69-97 | `load_configs` succeeds exactly when every line before end of file parses, and otherwise raises the first bad line's error; a loaded configuration holds exactly the keys the lines name, with only `vna_path` as text and every checked key within bounds |
| MeasureFuncs.LastLineWins | measure_funcs.py:94 | the stored value of a key is the one on the last line read that names it |
| MeasureFuncs.LoadedMotorHasAxis | measure_funcs.py:88-89 | a loaded `motor_dut` is 1 to 4, so `POS_CHECK[motor_dut]` is one of X, Y, Z, T |

## Left out

- Opening and closing `.config`, the serial port settings, the instrument's TCP socket, `subprocess.Popen` of the GUI and waiting for its "Connected" line, `time.sleep`, `print`, `exit`, and plotting and CSV output (`antenna_pattern.py`:144-160). The links are the scripted replies plus the logs of what was sent, and the file is its list of `readline()` results.
- The driver's `parse_trace_data`: the driver is not part of this model. It is a function parameter, and both `measure_vals` keep the second component of each pair it returns.
- The instrument driver's own behaviour on a query that gets no answer. Here it is the error `InstrumentSilent`.
- `.decode("ascii")` failures and byte-level encoding. The lines are strings.
- NumPy details: `np.array`, the complex dtype, and float values. `AntennaPattern.AngleSchedule` computes `floor(i * S / n)` in exact integer arithmetic. NumPy floors `i * fl(S / n)` with a rounded float step, which can come out one lower when `S / n` is not exact (`S` = 30, `n` = 22, `i` = 11 gives 14, not 15). The script's `14400 / 360 = 40.0` is exact, so its schedule is the one modelled. `freq_min` and `freq_max` (`FreqMin` and `FreqMax` here) are `915e6 ∓ 20000` as integers.
- AntennaPattern.SetupCommandsOrder: the start and stop frequencies are floats in the script. Their text is modelled as Python prints an integral float below 1e16 (`914980000.0`), which is all the script passes.
- Text.PyInt: CPython 3.11 and later (and the 2022 security releases of 3.7 to 3.10) refuse by default to convert a literal of more than 4300 digits (`sys.int_info.default_max_str_digits`) and raise ValueError. The model accepts a literal of any length. This carries over to the position parse and to `load_configs`.
- Text.PyInt: `int()` also accepts underscores between digits, non-ASCII digits, and any white space `str.isspace` accepts: the ASCII separators `\x1c` to `\x1f` and the non-ASCII spaces. Only space, tab, newline, carriage return, vertical tab and form feed, with `[+-]?[0-9]+`, are modelled, which covers every line `str()` writes.
- Text.IntTextRoundTrip: under the same CPython limit, `str()` of an int of more than 4300 digits raises ValueError. The model prints any int.
- MotorProtocol.ParsePositionFails: a position token of more than 4300 digits makes CPython's `int()` raise ValueError instead of returning a value (the 4300-digit limit above). The model reads any length.
- MeasureFuncs.IntLineRoundTrip: a number of more than 4300 digits raises ValueError in CPython, even for a key without bounds such as `freq`. The model loads it.
- MotorProtocol.MoveMotorWith: against a real controller, a `pos` outside one revolution makes the polling loop run forever. The loop compares `current_pos % S` with the raw `pos`. In the model the scripted replies run out, the empty read has no position token, and the result is an error. The ensures states this as "never succeeds".
- VnaLink.Acquire: when a query fails part-way, the commands already sent are not kept in the error result.
- MeasureFuncs.MeasureVals: with a setting missing, the script has already sent the commands before the one that needs it (six when `freq` is missing, `measure_funcs.py`:48-54). The model looks up all five settings before sending anything, and the error result keeps no send log.
- `motor_ready` follows the code: after `K` it reads one more reply and does not send `V` again.
- The `command` string that `init_motors` builds and never sends (`antenna_pattern.py`:67) has no effect and is not modelled.

=== FILE: antenna_pattern.dfy ===
/** The measurement script: its settings, move_motor and init_motors on a
    fixed 14400-step rotator, measure_vals with an explicit start/stop
    frequency window, the angle schedule, and the acquisition loop that
    moves to each angle and stores one trace row per angle. */
module AntennaPattern {
  import opened Results
  import opened Text
  import opened PyArith
  import opened SerialLink
  import opened MotorProtocol
  import opened VnaLink

  const MotorDut := 1
  const NFreqs := 3
  /** 915e6 - 20000 and 915e6 + 20000: floats in the script, integral here. */
  const FreqMin := 914980000
  const FreqMax := 915020000
  const OutPower := -10
  const IfBandwidth := 100
  const AvgPts := 128
  const NAngles := 360
  const StepsPerRev := 14400
  const InitMotorPositions: seq<int> := [0]

  /** move_motor(conn, motor_id, pos) with steps_per_rev = 14400. A move
      that returns is a MoveMade: its readings (start, polling, final), the
      letter-command-letters writes with one move command, and the replies
      it consumed, as a suffix left over. */
  function MoveMotor(c: Conn, motorId: int, pos: int): (r: Result<Moved>)
    ensures r.Ok? ==> -5 <= motorId <= 4 && 0 <= pos < StepsPerRev
    ensures r.Ok? ==> && r.value.final % StepsPerRev == pos
                      && r.value.next % StepsPerRev == pos
                      && r.value.next / StepsPerRev == r.value.start / StepsPerRev
    ensures r.Ok? ==> MoveMade(c, StepsPerRev, motorId, pos, r.value)
    ensures -5 <= motorId <= 4 && |c.replies| >= 1 && ParsePosition(c.replies[0]).Ok?
            && PyMod(ParsePosition(c.replies[0]).value, StepsPerRev) != pos
            && (|c.replies| < 3 || ParsePosition(c.replies[2]).Err?) ==>
              r == Err(NoPositionToken(if |c.replies| < 3 then "" else c.replies[2]))
    ensures -5 <= motorId <= 4 ==> (r.Ok? <==> MoveSpan(c.replies, StepsPerRev, pos).Some?)
    ensures r.Ok? ==> MoveLeaves(c.replies, StepsPerRev, pos, r.value.conn.replies)
    ensures !(-5 <= motorId <= 4) ==> r == Err(AxisIndex(motorId))
    ensures -5 <= motorId <= 4 && r.Err? ==> r.error == NoPositionToken(MoveStuck(c.replies, StepsPerRev, pos))
  {
    MoveFacts(c, motorId, pos);
    if -5 <= motorId <= 4 then
      MoveSucceeds(c, motorId, StepsPerRev, pos);
      MoveMotorWith(c, motorId, Ok(StepsPerRev), pos)
    else
      MoveMotorWith(c, motorId, Ok(StepsPerRev), pos)
  }

  /** The readings and writes of move_motor with 14400 steps per revolution,
      proved from the general protocol. */
  lemma MoveFacts(c: Conn, motorId: int, pos: int)
    ensures var r := MoveMotorWith(c, motorId, Ok(StepsPerRev), pos);
            && (r.Ok? ==> -5 <= motorId <= 4 && 0 <= pos < StepsPerRev)
            && (r.Ok? ==> && r.value.final % StepsPerRev == pos
                          && r.value.next % StepsPerRev == pos
                          && r.value.next / StepsPerRev == r.value.start / StepsPerRev)
            && (r.Ok? ==> MoveMade(c, StepsPerRev, motorId, pos, r.value))
  {
    var r := MoveMotorWith(c, motorId, Ok(StepsPerRev), pos);
    if r.Ok? {
      assert MoveTargets(c, StepsPerRev, pos, r.value);
      ModuloFacts(r.value.start, r.value.next, r.value.final, pos);
    }
  }

  lemma ModuloFacts(start: int, next: int, final: int, pos: int)
    requires PyMod(final, StepsPerRev) == pos
    requires PyMod(next, StepsPerRev) == PyMod(pos, StepsPerRev)
    requires next - PyMod(next, StepsPerRev) == start - PyMod(start, StepsPerRev)
    ensures 0 <= pos < StepsPerRev
    ensures final % StepsPerRev == pos && next % StepsPerRev == pos
    ensures next / StepsPerRev == start / StepsPerRev
  {
    assert StepsPerRev * (next / StepsPerRev) == StepsPerRev * (start / StepsPerRev);
  }

  /** `after` extends `before`, and the move commands written in between go,
      in order, to motor ids[i] with a target congruent to targets[i]. */
  predicate MovedInOrder(before: seq<string>, after: seq<string>, ids: seq<int>, targets: seq<int>) {
    && |ids| == |targets|
    && |before| <= |after|
    && after[..|before|] == before
    && var moves := MoveCommands(after[|before|..]);
       && |moves| == |targets|
       && forall i :: 0 <= i < |moves| ==> moves[i].0 == ids[i] && moves[i].1 % StepsPerRev == targets[i]
  }

  lemma MovedInOrderCompose(a: seq<string>, b: seq<string>, c: seq<string>,
                            ids1: seq<int>, t1: seq<int>, ids2: seq<int>, t2: seq<int>)
    requires MovedInOrder(a, b, ids1, t1) && MovedInOrder(b, c, ids2, t2)
    ensures MovedInOrder(a, c, ids1 + ids2, t1 + t2)
  {
    WritesCompose(a, b, c);
    var m1, m2 := MoveCommands(b[|a|..]), MoveCommands(c[|b|..]);
    var m := m1 + m2;
    forall i | 0 <= i < |m|
      ensures m[i].0 == (ids1 + ids2)[i] && m[i].1 % StepsPerRev == (t1 + t2)[i]
    {
      if i >= |m1| {
        assert m[i] == m2[i - |m1|];
      }
    }
  }

  lemma NoMoves(a: seq<string>)
    ensures MovedInOrder(a, a, [], [])
  {
    assert a[|a|..] == [];
  }

  /** Motor ids k + 1 .. n, the ids init_motors uses from list index k on. */
  function Ids(k: nat, n: nat): (r: seq<int>)
    requires k <= n
    ensures |r| == n - k
  {
    seq(n - k, i => k + i + 1)
  }

  /** init_motors: motor i + 1 is moved to pos_list[i], in list order. The
      result holds the moves made and the link afterwards (init_motors itself
      only returns True). */
  function InitMotors(c: Conn, posList: seq<int>): (r: Result<(seq<Moved>, Conn)>)
    ensures r.Ok? ==> |posList| <= 4
    ensures r.Ok? ==> forall i :: 0 <= i < |posList| ==> 0 <= posList[i] < StepsPerRev
    ensures r.Ok? ==> MovedInOrder(c.written, r.value.1.written, Ids(0, |posList|), posList)
    ensures r.Ok? ==> MovesMade(c, StepsPerRev, Ids(0, |posList|), posList, r.value.0)
                      && r.value.1 == LinkAt(c, r.value.0, |r.value.0|)
    ensures r.Ok? ==> MovesLeave(c.replies, StepsPerRev, posList) == Some(r.value.1.replies)
    ensures |posList| <= 4 && MovesLeave(c.replies, StepsPerRev, posList).Some? ==> r.Ok?
  {
    assert posList[0..] == posList;
    InitMoveRun(c, posList, 0);
    InitLeaves(c, posList, 0);
    InitSucceeds(c, posList, 0);
    InitFrom(c, posList, 0)
  }

  lemma InitStep(before: seq<string>, m: Moved, after: seq<string>, posList: seq<int>, k: nat)
    requires k < |posList|
    requires |before| <= |m.conn.written| && m.conn.written[..|before|] == before
    requires MoveCommands(m.conn.written[|before|..]) == [(k + 1, m.next)]
    requires m.next % StepsPerRev == posList[k]
    requires MovedInOrder(m.conn.written, after, Ids(k + 1, |posList|), posList[k + 1..])
    ensures MovedInOrder(before, after, Ids(k, |posList|), posList[k..])
  {
    assert MovedInOrder(before, m.conn.written, [k + 1], [posList[k]]);
    MovedInOrderCompose(before, m.conn.written, after,
                        [k + 1], [posList[k]], Ids(k + 1, |posList|), posList[k + 1..]);
    IdsCons(k, |posList|);
    SplitFirst(posList, k);
  }

  lemma IdsCons(k: nat, n: nat)
    requires k < n
    ensures [k + 1] + Ids(k + 1, n) == Ids(k, n)
  {
  }

  /** The list from index k on is its element k followed by the list from k + 1 on. */
  lemma SplitFirst(s: seq<int>, k: nat)
    requires k < |s|
    ensures [s[k]] + s[k + 1..] == s[k..]
    ensures s[k..][0] == s[k] && s[k..][1..] == s[k + 1..]
  {
  }

  /** The moves of init_motors from list index k on: the move to index k in
      front of the moves after it. */
  lemma InitMovesStep(c: Conn, m: Moved, ms: seq<Moved>, posList: seq<int>, k: nat)
    requires k < |posList|
    requires MoveMade(c, StepsPerRev, k + 1, posList[k], m)
    requires MovesMade(m.conn, StepsPerRev, Ids(k + 1, |posList|), posList[k + 1..], ms)
    ensures MovesMade(c, StepsPerRev, Ids(k, |posList|), posList[k..], [m] + ms)
    ensures LinkAt(c, [m] + ms, |ms| + 1) == LinkAt(m.conn, ms, |ms|)
  {
    MovesMadeCons(c, StepsPerRev, k + 1, posList[k], m, Ids(k + 1, |posList|), posList[k + 1..], ms);
    IdsCons(k, |posList|);
    SplitFirst(posList, k);
  }

  /** The replies the moves from index k on leave, seen after the move to
      index k. */
  lemma InitLeaveStep(c: Conn, posList: seq<int>, k: nat)
    requires k < |posList|
    requires MoveMotor(c, k + 1, posList[k]).Ok?
    ensures MovesLeave(c.replies, StepsPerRev, posList[k..])
            == MovesLeave(MoveMotor(c, k + 1, posList[k]).value.conn.replies, StepsPerRev, posList[k + 1..])
  {
    SplitFirst(posList, k);
    LeaveCons(c.replies, MoveMotor(c, k + 1, posList[k]).value.conn.replies, StepsPerRev, posList[k], posList[k + 1..]);
  }

  /** The loop of init_motors from list index k on. */
  function InitFrom(c: Conn, posList: seq<int>, k: nat): (r: Result<(seq<Moved>, Conn)>)
    requires k <= |posList|
    ensures r.Ok? && k < |posList| ==> |posList| <= 4
    ensures r.Ok? ==> forall i :: k <= i < |posList| ==> 0 <= posList[i] < StepsPerRev
    ensures r.Ok? ==> MovedInOrder(c.written, r.value.1.written, Ids(k, |posList|), posList[k..])
    decreases |posList| - k
  {
    if k == |posList| then
      NoMoves(c.written);
      Ok(([], c))
    else
      var moved := MoveMotor(c, k + 1, posList[k]);
      if moved.Err? then Err(moved.error)
      else
        var m := moved.value;
        var rest := InitFrom(m.conn, posList, k + 1);
        if rest.Err? then Err(rest.error)
        else
          InitStep(c.written, m, rest.value.1.written, posList, k);
          Ok(([m] + rest.value.0, rest.value.1))
  }

  /** The moves init_motors makes from list index k on, one per position
      in list order, and the link they leave. */
  lemma {:induction false} InitMoveRun(c: Conn, posList: seq<int>, k: nat)
    requires k <= |posList|
    ensures var r := InitFrom(c, posList, k);
            r.Ok? ==> && MovesMade(c, StepsPerRev, Ids(k, |posList|), posList[k..], r.value.0)
                      && r.value.1 == LinkAt(c, r.value.0, |r.value.0|)
    decreases |posList| - k
  {
    if k == |posList| {
      NoMovesMade(c, StepsPerRev);
    } else if InitFrom(c, posList, k).Ok? {
      var m := MoveMotor(c, k + 1, posList[k]).value;
      InitMoveRun(m.conn, posList, k + 1);
      var rest := InitFrom(m.conn, posList, k + 1).value;
      InitMovesStep(c, m, rest.0, posList, k);
    }
  }

  /** The replies init_motors leaves from list index k on are what the
      moves to the remaining positions leave, read one after another. */
  lemma {:induction false} InitLeaves(c: Conn, posList: seq<int>, k: nat)
    requires k <= |posList|
    ensures var r := InitFrom(c, posList, k);
            r.Ok? ==> MovesLeave(c.replies, StepsPerRev, posList[k..]) == Some(r.value.1.replies)
    decreases |posList| - k
  {
    if k == |posList| {
      assert posList[k..] == [];
    } else if InitFrom(c, posList, k).Ok? {
      var m := MoveMotor(c, k + 1, posList[k]).value;
      InitLeaves(m.conn, posList, k + 1);
      InitLeaveStep(c, posList, k);
    }
  }

  /** init_motors from list index k on succeeds whenever at most four
      positions are given and every move finds its readings. */
  lemma {:induction false} InitSucceeds(c: Conn, posList: seq<int>, k: nat)
    requires k <= |posList|
    ensures |posList| <= 4 && MovesLeave(c.replies, StepsPerRev, posList[k..]).Some? ==> InitFrom(c, posList, k).Ok?
    decreases |posList| - k
  {
    if k < |posList| && |posList| <= 4 && MovesLeave(c.replies, StepsPerRev, posList[k..]).Some? {
      SplitFirst(posList, k);
      assert MoveMotor(c, k + 1, posList[k]).Ok?;
      InitLeaveStep(c, posList, k);
      InitSucceeds(MoveMotor(c, k + 1, posList[k]).value.conn, posList, k + 1);
    }
  }

  /** Writes of consecutive steps decode to the steps' move commands in order. */
  lemma WritesCompose(a: seq<string>, b: seq<string>, c: seq<string>)
    requires |a| <= |b| <= |c|
    requires b[..|a|] == a && c[..|b|] == b
    ensures c[..|a|] == a
    ensures MoveCommands(c[|a|..]) == MoveCommands(b[|a|..]) + MoveCommands(c[|b|..])
  {
    assert c[|a|..] == b[|a|..] + c[|b|..];
    MoveCommandsAppend(b[|a|..], c[|b|..]);
  }

  /** str() of a float with an integral value below 1e16, as Python prints it. */
  function FloatText(n: int): string {
    IntText(n) + ".0"
  }

  /** The keywords of the nine commands measure_vals sends before waiting
      for the sweep, in order. */
  const SetupKeywords: seq<string> :=
    [ ":DEV:MODE", ":VNA:SWEEP", ":VNA:STIM:LVL", ":VNA:ACQ:IFBW", ":VNA:ACQ:AVG",
      ":VNA:ACQ:POINTS", ":VNA:FREQ:START", ":VNA:FREQ:STOP", "VNA:ACQuisition:SINGLE" ]

  /** The arguments of the nine setup commands; `avg` is the number of
      sweeps the instrument averages (AVG_PTS in the script). */
  function SetupArguments(minFreq: int, maxFreq: int, stimPwr: int, ifbw: int, avg: int, nPoints: int): seq<Option<string>> {
    [ Some("VNA"), Some("FREQUENCY"), Some(IntText(stimPwr)), Some(IntText(ifbw)), Some(IntText(avg)),
      Some(IntText(nPoints)), Some(FloatText(minFreq)), Some(FloatText(maxFreq)), Some("TRUE") ]
  }

  /** The nine setup commands, ending with the single-sweep trigger (sent
      without a leading colon): each splits back into its keyword and its
      argument. */
  function SetupCommands(minFreq: int, maxFreq: int, stimPwr: int, ifbw: int, avg: int, nPoints: int): (cmds: seq<string>)
    ensures |cmds| == 9
    ensures forall i :: 0 <= i < 9 ==>
              && Keyword(cmds[i]) == SetupKeywords[i]
              && Argument(cmds[i]) == SetupArguments(minFreq, maxFreq, stimPwr, ifbw, avg, nPoints)[i]
  {
    var args := SetupArguments(minFreq, maxFreq, stimPwr, ifbw, avg, nPoints);
    SetupKeywordsHaveNoSpace();
    CommandLinesFields(SetupKeywords, args);
    CommandLines(SetupKeywords, args)
  }

  lemma SetupKeywordsHaveNoSpace()
    ensures forall i :: 0 <= i < |SetupKeywords| ==> ' ' !in SetupKeywords[i]
  {
  }

  /** The level, bandwidth, averaging and point-count arguments read back as
      the values passed in, and start and stop are printed as floats. */
  lemma SetupCommandsOrder(minFreq: int, maxFreq: int, stimPwr: int, ifbw: int, avg: int, nPoints: int)
    ensures var cmds := SetupCommands(minFreq, maxFreq, stimPwr, ifbw, avg, nPoints);
            && Argument(cmds[2]).Some? && ParseInt(Argument(cmds[2]).value) == Some(stimPwr)
            && Argument(cmds[3]).Some? && ParseInt(Argument(cmds[3]).value) == Some(ifbw)
            && Argument(cmds[4]).Some? && ParseInt(Argument(cmds[4]).value) == Some(avg)
            && Argument(cmds[5]).Some? && ParseInt(Argument(cmds[5]).value) == Some(nPoints)
            && Argument(cmds[6]) == Some(FloatText(minFreq))
            && Argument(cmds[7]) == Some(FloatText(maxFreq))
  {
    var cmds := SetupCommands(minFreq, maxFreq, stimPwr, ifbw, avg, nPoints);
    var args := SetupArguments(minFreq, maxFreq, stimPwr, ifbw, avg, nPoints);
    assert Argument(cmds[2]) == args[2] && Argument(cmds[3]) == args[3];
    assert Argument(cmds[4]) == args[4] && Argument(cmds[5]) == args[5];
    IntArguments(args, stimPwr, ifbw, avg, nPoints);
  }

  /** The four integer arguments read back. This only applies
      IntTextRoundTrip to each; it is kept apart so SetupCommandsOrder's
      proof stays small. */
  lemma IntArguments(args: seq<Option<string>>, stimPwr: int, ifbw: int, avg: int, nPoints: int)
    requires |args| == 9
    requires args[2] == Some(IntText(stimPwr)) && args[3] == Some(IntText(ifbw))
    requires args[4] == Some(IntText(avg)) && args[5] == Some(IntText(nPoints))
    ensures && ParseInt(args[2].value) == Some(stimPwr) && ParseInt(args[3].value) == Some(ifbw)
            && ParseInt(args[4].value) == Some(avg) && ParseInt(args[5].value) == Some(nPoints)
  {
    IntTextRoundTrip(stimPwr);
    IntTextRoundTrip(ifbw);
    IntTextRoundTrip(avg);
    IntTextRoundTrip(nPoints);
  }

  /** measure_vals(conn, min_freq, max_freq, stim_pwr, ifbw, n_points). */
  function MeasureVals<F, T>(v: Vna, minFreq: int, maxFreq: int, stimPwr: int, ifbw: int, nPoints: int,
                          parse: string -> seq<(F, T)>): (r: Result<Measured<T>>)
    ensures r.Ok? <==> Pending(v.replies) + 2 <= |v.replies|
    ensures r.Ok? ==> Delivered(v, SetupCommands(minFreq, maxFreq, stimPwr, ifbw, AvgPts, nPoints), parse, r.value)
  {
    Acquire(v, SetupCommands(minFreq, maxFreq, stimPwr, ifbw, AvgPts, nPoints), parse)
  }

  /** The targets of np.floor(np.linspace(0, steps, n_angles, endpoint=False)),
      taken as the exact quotients floor(i * steps / n_angles). NumPy itself
      floors i * fl(steps / n_angles), a rounded float step, which can land
      one lower when the step is not exact (steps 30, 22 angles, i = 11:
      14 rather than 15); the script's 14400 / 360 = 40 is exact, so its
      schedule is the one below. */
  function AngleSchedule(nAngles: nat, steps: int): (r: seq<int>)
    ensures |r| == nAngles
    ensures nAngles > 0 ==> r[0] == 0
  {
    seq(nAngles, i requires 0 <= i < nAngles => i * steps / nAngles)
  }

  lemma MulMonotone(a: int, b: int, c: int)
    requires a <= b && c >= 0
    ensures a * c <= b * c
  {
  }

  /** Every target lies within one revolution. */
  lemma ScheduleInRange(nAngles: nat, steps: int)
    requires steps > 0
    ensures forall i :: 0 <= i < nAngles ==> 0 <= AngleSchedule(nAngles, steps)[i] < steps
  {
    forall i | 0 <= i < nAngles
      ensures 0 <= AngleSchedule(nAngles, steps)[i] < steps
    {
      QuotientInRange(i, nAngles, steps);
    }
  }

  lemma QuotientInRange(i: int, n: int, steps: int)
    requires 0 <= i < n && steps > 0
    ensures 0 <= i * steps / n < steps
  {
    var q := i * steps / n;
    MulMonotone(0, i, steps);
    MulMonotone(i, n - 1, steps);
    assert i * steps < n * steps;
    assert n * q <= i * steps;
    if q >= steps {
      MulMonotone(steps, q, n);
      assert false;
    }
  }

  /** Consecutive targets are floor(steps / n) or one more apart; exactly
      floor(steps / n) when n divides steps. */
  lemma ScheduleSpacing(nAngles: nat, steps: int)
    ensures forall i :: 0 < i < nAngles ==>
              var gap := AngleSchedule(nAngles, steps)[i] - AngleSchedule(nAngles, steps)[i - 1];
              steps / nAngles <= gap <= steps / nAngles + 1
    ensures nAngles > 0 && steps % nAngles == 0 ==>
              forall i :: 0 <= i < nAngles ==> AngleSchedule(nAngles, steps)[i] == i * (steps / nAngles)
  {
    var r := AngleSchedule(nAngles, steps);
    forall i | 0 < i < nAngles
      ensures steps / nAngles <= r[i] - r[i - 1] <= steps / nAngles + 1
    {
      StepGap(nAngles, (i - 1) * steps, steps);
      assert i * steps == (i - 1) * steps + steps;
    }
    if nAngles > 0 && steps % nAngles == 0 {
      forall i | 0 <= i < nAngles
        ensures r[i] == i * (steps / nAngles)
      {
        var d := steps / nAngles;
        assert steps == nAngles * d;
        assert i * steps == nAngles * (i * d);
        EuclidUnique(i * steps, nAngles, i * d, 0);
      }
    }
  }

  lemma StepGap(n: int, a: int, s: int)
    requires n > 0
    ensures s / n <= (a + s) / n - a / n <= s / n + 1
  {
    var q1, r1, q2, r2 := a / n, a % n, s / n, s % n;
    assert a + s == n * (q1 + q2) + (r1 + r2);
    if r1 + r2 < n {
      EuclidUnique(a + s, n, q1 + q2, r1 + r2);
    } else {
      assert a + s == n * (q1 + q2 + 1) + (r1 + r2 - n);
      EuclidUnique(a + s, n, q1 + q2 + 1, r1 + r2 - n);
    }
  }

  /** With no more angles than steps the targets strictly increase. */
  lemma ScheduleIncreasing(nAngles: nat, steps: int)
    requires 0 < nAngles <= steps
    ensures forall i, j :: 0 <= i < j < nAngles ==> AngleSchedule(nAngles, steps)[i] < AngleSchedule(nAngles, steps)[j]
  {
    var r := AngleSchedule(nAngles, steps);
    ScheduleSpacing(nAngles, steps);
    assert steps / nAngles >= 1 by {
      EuclidUnique(steps, nAngles, steps / nAngles, steps % nAngles);
      if steps / nAngles <= 0 {
        MulMonotone(steps / nAngles, 0, nAngles);
        assert false;
      }
    }
    forall i, j | 0 <= i < j < nAngles
      ensures r[i] < r[j]
    {
      IncreasingFrom(r, i, j);
    }
  }

  lemma {:induction false} IncreasingFrom(r: seq<int>, i: int, j: int)
    requires 0 <= i < j < |r|
    requires forall k :: 0 < k < |r| ==> r[k - 1] < r[k]
    ensures r[i] < r[j]
    decreases j - i
  {
    if i + 1 < j {
      IncreasingFrom(r, i + 1, j);
    }
  }

  /** The script's schedule: 360 targets, 40 steps (one degree) apart. */
  lemma ScriptSchedule()
    ensures AngleSchedule(NAngles, StepsPerRev) == seq(NAngles, i => 40 * i)
  {
    ScheduleSpacing(NAngles, StepsPerRev);
  }

  /** measurements[index, :] = data for a row of width `width`: a trace of
      that length is stored as is, a single value is broadcast, any other
      length is refused. */
  function StoreRow<T>(data: seq<T>, width: nat): (r: Result<seq<T>>)
    ensures r.Ok? <==> |data| == width || |data| == 1
    ensures r.Err? ==> r.error == RowShape(width, |data|)
    ensures r.Ok? ==> |r.value| == width
    ensures r.Ok? && |data| == width ==> r.value == data
    ensures r.Ok? ==> forall j :: 0 <= j < width ==> r.value[j] in data
  {
    if |data| == width then Ok(data)
    else if |data| == 1 then Ok(seq(width, _ => data[0]))
    else Err(RowShape(width, |data|))
  }

  /** The instrument answers one acquisition from `replies` with a trace
      that numpy can store as a row. */
  ghost predicate TraceStorable<F, T>(replies: seq<string>, parse: string -> seq<(F, T)>) {
    var k := Pending(replies);
    k + 2 <= |replies| && StoreRow(Values(parse(replies[k + 1])), NFreqs).Ok?
  }

  /** The instrument answers n acquisitions in a row from `replies`, each
      with a trace that numpy can store as a row. */
  ghost predicate TracesStorable<F, T>(replies: seq<string>, parse: string -> seq<(F, T)>, n: nat) {
    var a := Acquisitions(replies, n);
    && a.Some?
    && forall i :: 0 <= i < n ==> StoreRow(Values(parse(a.value.0[i])), NFreqs).Ok?
  }

  /** The rows gathered so far, the moves made on the way, and both links. */
  datatype Swept<T> = Swept(rows: seq<seq<T>>, moves: seq<Moved>, motor: Conn, vna: Vna)

  /** One pass of the acquisition loop: move the DUT motor to the angle,
      measure, and shape the trace as a row. */
  function SweepAngle<F, T>(motor: Conn, vna: Vna, angle: int, parse: string -> seq<(F, T)>): (r: Result<(seq<T>, Moved, Vna)>)
    ensures r.Ok? ==> |r.value.0| == NFreqs
    ensures r.Ok? ==> 0 <= angle < StepsPerRev && r.value.1.next % StepsPerRev == angle
    ensures r.Ok? ==>
              && |motor.written| <= |r.value.1.conn.written|
              && r.value.1.conn.written[..|motor.written|] == motor.written
              && MoveCommands(r.value.1.conn.written[|motor.written|..]) == [(MotorDut, r.value.1.next)]
    ensures r.Ok? ==>
              var k := Pending(vna.replies);
              && k + 2 <= |vna.replies|
              && StoreRow(Values(parse(vna.replies[k + 1])), NFreqs) == Ok(r.value.0)
              && r.value.2.replies == vna.replies[k + 2..]
    ensures r.Ok? ==> MoveMotor(motor, MotorDut, angle).Ok? && MoveMotor(motor, MotorDut, angle).value == r.value.1
    ensures MoveSpan(motor.replies, StepsPerRev, angle).Some? && TraceStorable(vna.replies, parse) ==> r.Ok?
  {
    var moved := MoveMotor(motor, MotorDut, angle);
    if moved.Err? then Err(moved.error)
    else
      var m := moved.value;
      var d :- MeasureVals(vna, FreqMin, FreqMax, OutPower, IfBandwidth, NFreqs, parse);
      var row :- StoreRow(d.values, NFreqs);
      Ok((row, m, d.vna))
  }

  /** The rows of a sweep over `angles` have the trace width, one per angle,
      and the moves written on the way went to the DUT motor, one per angle,
      in order, each congruent to its angle. */
  predicate Collected<T>(before: seq<string>, angles: seq<int>, s: Swept<T>) {
    && |s.rows| == |angles|
    && (forall i :: 0 <= i < |s.rows| ==> |s.rows[i]| == NFreqs)
    && MovedInOrder(before, s.motor.written, Repeat(MotorDut, |angles|), angles)
  }

  /** Row i of a sweep is the stored trace of the i-th acquisition read from
      `replies`, and the instrument is left with the replies after them. */
  ghost predicate RowsMeasured<F, T>(replies: seq<string>, parse: string -> seq<(F, T)>, s: Swept<T>) {
    var a := Acquisitions(replies, |s.rows|);
    && a.Some?
    && s.vna.replies == a.value.1
    && forall i :: 0 <= i < |s.rows| ==> StoreRow(Values(parse(a.value.0[i])), NFreqs) == Ok(s.rows[i])
  }

  /** The acquisition loop: for each angle in order, move the DUT motor
      there, measure, and store the trace as the next row. */
  function Collect<F, T>(motor: Conn, vna: Vna, angles: seq<int>, parse: string -> seq<(F, T)>): (r: Result<Swept<T>>)
    ensures r.Ok? ==> |r.value.moves| == |angles| && |r.value.rows| == |angles|
    decreases |angles|
  {
    if |angles| == 0 then
      Ok(Swept([], [], motor, vna))
    else
      var n := |angles|;
      var before := Collect(motor, vna, angles[..n - 1], parse);
      if before.Err? then Err(before.error)
      else
        var done := before.value;
        var pass := SweepAngle(done.motor, done.vna, angles[n - 1], parse);
        if pass.Err? then Err(pass.error)
        else
          var step := pass.value;
          Ok(Swept(done.rows + [step.0], done.moves + [step.1], step.1.conn, step.2))
  }

  /** What a completed loop wrote to the motor: one move command per angle,
      in order, each congruent to its angle. */
  lemma {:induction false} CollectWrites<F, T>(motor: Conn, vna: Vna, angles: seq<int>, parse: string -> seq<(F, T)>)
    ensures var r := Collect(motor, vna, angles, parse);
            r.Ok? ==> Collected(motor.written, angles, r.value)
    decreases |angles|
  {
    var r := Collect(motor, vna, angles, parse);
    if |angles| == 0 {
      NoMoves(motor.written);
    } else if r.Ok? {
      var init, last := angles[..|angles| - 1], angles[|angles| - 1];
      CollectWrites(motor, vna, init, parse);
      var done := Collect(motor, vna, init, parse).value;
      var step := SweepAngle(done.motor, done.vna, last, parse).value;
      CollectExtend(motor.written, angles, done, step.0, step.1, step.2);
      assert r.value == Swept(done.rows + [step.0], done.moves + [step.1], step.1.conn, step.2);
    }
  }

  /** The rows of a completed loop: row i is the stored trace of the i-th
      acquisition. */
  lemma {:induction false} CollectRows<F, T>(motor: Conn, vna: Vna, angles: seq<int>, parse: string -> seq<(F, T)>)
    ensures var r := Collect(motor, vna, angles, parse);
            r.Ok? ==> RowsMeasured(vna.replies, parse, r.value)
    decreases |angles|
  {
    var r := Collect(motor, vna, angles, parse);
    if |angles| == 0 {
      assert Acquisitions(vna.replies, 0) == Some(([], vna.replies));
    } else if r.Ok? {
      var init, last := angles[..|angles| - 1], angles[|angles| - 1];
      CollectRows(motor, vna, init, parse);
      var done := Collect(motor, vna, init, parse).value;
      var step := SweepAngle(done.motor, done.vna, last, parse).value;
      RowsExtend(vna.replies, parse, done, step.0, step.1.conn, step.2);
      assert r.value == Swept(done.rows + [step.0], done.moves + [step.1], step.1.conn, step.2);
    }
  }

  /** The moves of a completed loop: one DUT move per angle, in order, each
      reading on from where the one before left the link. */
  lemma {:induction false} CollectMoveRun<F, T>(motor: Conn, vna: Vna, angles: seq<int>, parse: string -> seq<(F, T)>)
    ensures var r := Collect(motor, vna, angles, parse);
            r.Ok? ==> && MovesMade(motor, StepsPerRev, Repeat(MotorDut, |angles|), angles, r.value.moves)
                      && r.value.motor == LinkAt(motor, r.value.moves, |r.value.moves|)
    decreases |angles|
  {
    var r := Collect(motor, vna, angles, parse);
    if |angles| == 0 {
      NoMovesMade(motor, StepsPerRev);
    } else if r.Ok? {
      var init, last := angles[..|angles| - 1], angles[|angles| - 1];
      CollectMoveRun(motor, vna, init, parse);
      var done := Collect(motor, vna, init, parse).value;
      var step := SweepAngle(done.motor, done.vna, last, parse).value;
      assert r.value == Swept(done.rows + [step.0], done.moves + [step.1], step.1.conn, step.2);
      SplitLast(angles);
      CollectMoves(motor, angles, init, last, done.moves, done.motor, step.1);
    }
  }

  /** A completed loop leaves the motor link with the replies that the run
      of moves to `angles` leaves. */
  lemma {:induction false} CollectLeaves<F, T>(motor: Conn, vna: Vna, angles: seq<int>, parse: string -> seq<(F, T)>)
    ensures var r := Collect(motor, vna, angles, parse);
            r.Ok? ==> MovesLeave(motor.replies, StepsPerRev, angles) == Some(r.value.motor.replies)
    decreases |angles|
  {
    var r := Collect(motor, vna, angles, parse);
    if |angles| > 0 && r.Ok? {
      var init, last := angles[..|angles| - 1], angles[|angles| - 1];
      CollectLeaves(motor, vna, init, parse);
      var done := Collect(motor, vna, init, parse).value;
      var step := SweepAngle(done.motor, done.vna, last, parse).value;
      assert r.value.motor == step.1.conn;
      SplitLast(angles);
      PassLeaves(motor.replies, init, done.motor, done.vna, last, parse);
    }
  }

  /** The loop completes when every move's polling reaches its angle and
      every acquisition is answered with a storable trace; and only then,
      since a completed loop's moves leave replies and its rows are the
      stored traces. */
  lemma {:induction false} CollectSucceeds<F, T>(motor: Conn, vna: Vna, angles: seq<int>, parse: string -> seq<(F, T)>)
    ensures Collect(motor, vna, angles, parse).Ok? <==>
              MovesLeave(motor.replies, StepsPerRev, angles).Some? && TracesStorable(vna.replies, parse, |angles|)
    decreases |angles|
  {
    var r := Collect(motor, vna, angles, parse);
    if |angles| == 0 {
      assert Acquisitions(vna.replies, 0) == Some(([], vna.replies));
    } else {
      var init, last := angles[..|angles| - 1], angles[|angles| - 1];
      CollectSucceeds(motor, vna, init, parse);
      SplitLast(angles);
      LeaveSplit(motor.replies, angles, init, last);
      TracesPrefix(vna.replies, parse, |angles| - 1);
      if Collect(motor, vna, init, parse).Ok? {
        CollectLeaves(motor, vna, init, parse);
        CollectRows(motor, vna, init, parse);
      }
      if r.Ok? {
        CollectLeaves(motor, vna, angles, parse);
        CollectTraces(motor, vna, angles, parse);
      }
    }
  }

  /** A completed loop read a storable trace for every angle. */
  lemma CollectTraces<F, T>(motor: Conn, vna: Vna, angles: seq<int>, parse: string -> seq<(F, T)>)
    ensures Collect(motor, vna, angles, parse).Ok? ==> TracesStorable(vna.replies, parse, |angles|)
  {
    CollectRows(motor, vna, angles, parse);
    var r := Collect(motor, vna, angles, parse);
    if r.Ok? {
      TracesFromRows(vna.replies, parse, r.value);
    }
  }

  /** A completed pass after a run of moves to `init`: the run followed by
      the pass's move leaves what the pass left the motor link with. */
  lemma PassLeaves<F, T>(replies: seq<string>, init: seq<int>, motor: Conn, vna: Vna, last: int,
                         parse: string -> seq<(F, T)>)
    requires MovesLeave(replies, StepsPerRev, init) == Some(motor.replies)
    requires SweepAngle(motor, vna, last, parse).Ok?
    ensures MovesLeave(replies, StepsPerRev, init + [last])
            == Some(SweepAngle(motor, vna, last, parse).value.1.conn.replies)
  {
    MovesLeaveAppend(replies, StepsPerRev, init, [last]);
    LeaveCons(motor.replies, SweepAngle(motor, vna, last, parse).value.1.conn.replies, StepsPerRev, last, []);
    assert [last] + [] == [last];
  }

  /** When a run of moves to `angles` returns, so does the run to all but the
      last angle, and the last move from where that run leaves the link.
      A view of MovesLeaveSnoc at 14400 steps, kept apart so that its
      callers do not unfold MovesLeave themselves. */
  lemma LeaveSplit(replies: seq<string>, angles: seq<int>, init: seq<int>, last: int)
    requires angles == init + [last]
    ensures MovesLeave(replies, StepsPerRev, angles).Some? ==>
              && MovesLeave(replies, StepsPerRev, init).Some?
              && MoveSpan(MovesLeave(replies, StepsPerRev, init).value, StepsPerRev, last).Some?
  {
    MovesLeaveSnoc(replies, StepsPerRev, init, last);
  }

  /** Storable traces for n + 1 acquisitions are storable traces for the
      first n, and one more storable trace after them. */
  lemma TracesPrefix<F, T>(replies: seq<string>, parse: string -> seq<(F, T)>, n: nat)
    ensures TracesStorable(replies, parse, n + 1) ==>
              && TracesStorable(replies, parse, n)
              && TraceStorable(Acquisitions(replies, n).value.1, parse)
  {
    if TracesStorable(replies, parse, n + 1) {
      AcquisitionsPrefix(replies, n);
      var a := Acquisitions(replies, n).value;
      AcquisitionsSnoc(replies, n, a.0, a.1);
      var b := Acquisitions(replies, n + 1).value;
      assert b.0[n] == a.1[Pending(a.1) + 1];
      forall i | 0 <= i < n
        ensures StoreRow(Values(parse(a.0[i])), NFreqs).Ok?
      {
        assert a.0[i] == b.0[i];
      }
    }
  }

  /** The rows of a completed loop are stored traces, so the traces were
      storable. */
  lemma TracesFromRows<F, T>(replies: seq<string>, parse: string -> seq<(F, T)>, s: Swept<T>)
    requires RowsMeasured(replies, parse, s)
    ensures TracesStorable(replies, parse, |s.rows|)
  {
  }

  /** The moves of the loop: the earlier passes' moves, then the last pass's. */
  lemma CollectMoves(motor: Conn, angles: seq<int>, init: seq<int>, last: int, ms: seq<Moved>, middle: Conn, m: Moved)
    requires angles == init + [last]
    requires MovesMade(motor, StepsPerRev, Repeat(MotorDut, |init|), init, ms)
    requires middle == LinkAt(motor, ms, |ms|)
    requires MoveMade(middle, StepsPerRev, MotorDut, last, m)
    ensures MovesMade(motor, StepsPerRev, Repeat(MotorDut, |angles|), angles, ms + [m])
    ensures m.conn == LinkAt(motor, ms + [m], |ms + [m]|)
  {
    MovesMadeSnoc(motor, StepsPerRev, Repeat(MotorDut, |init|), init, ms, MotorDut, last, m);
    RepeatSnoc(MotorDut, |init|);
  }

  /** One more pass keeps the DUT moves in schedule order, for whatever
      move record the pass adds. A view of CollectStep in terms of Swept,
      kept apart so that Collect's proofs stay small. */
  lemma CollectExtend<T>(before: seq<string>, angles: seq<int>, done: Swept<T>, row: seq<T>, m: Moved, v: Vna)
    requires |angles| > 0
    requires Collected(before, angles[..|angles| - 1], done)
    requires |row| == NFreqs
    requires m.next % StepsPerRev == angles[|angles| - 1]
    requires |done.motor.written| <= |m.conn.written| && m.conn.written[..|done.motor.written|] == done.motor.written
    requires MoveCommands(m.conn.written[|done.motor.written|..]) == [(MotorDut, m.next)]
    ensures forall ms :: Collected(before, angles, Swept(done.rows + [row], ms, m.conn, v))
  {
    CollectStep(before, done.motor.written, m, angles);
  }

  lemma RowsExtend<F, T>(replies: seq<string>, parse: string -> seq<(F, T)>, done: Swept<T>, row: seq<T>,
                         motor: Conn, v: Vna)
    requires RowsMeasured(replies, parse, done)
    requires var k := Pending(done.vna.replies);
             && k + 2 <= |done.vna.replies|
             && StoreRow(Values(parse(done.vna.replies[k + 1])), NFreqs) == Ok(row)
             && v.replies == done.vna.replies[k + 2..]
    ensures forall ms :: RowsMeasured(replies, parse, Swept(done.rows + [row], ms, motor, v))
  {
    var a := Acquisitions(replies, |done.rows|).value;
    AcquisitionsSnoc(replies, |done.rows|, a.0, a.1);
    var rows := done.rows + [row];
    var b := Acquisitions(replies, |rows|).value;
    assert b.0 == a.0 + [done.vna.replies[Pending(done.vna.replies) + 1]];
    forall i | 0 <= i < |rows|
      ensures StoreRow(Values(parse(b.0[i])), NFreqs) == Ok(rows[i])
    {
      if i < |done.rows| {
        assert b.0[i] == a.0[i];
      }
    }
  }

  /** Every angle of a completed sweep lies within one revolution: the loop
      only gets past an angle the motor can report as a remainder. */
  lemma CollectedInRange<T>(before: seq<string>, angles: seq<int>, s: Swept<T>)
    requires Collected(before, angles, s)
    ensures forall i :: 0 <= i < |angles| ==> 0 <= angles[i] < StepsPerRev
  {
    var moves := MoveCommands(s.motor.written[|before|..]);
    forall i | 0 <= i < |angles|
      ensures 0 <= angles[i] < StepsPerRev
    {
      assert moves[i].1 % StepsPerRev == angles[i];
    }
  }

  lemma CollectStep(before: seq<string>, middle: seq<string>, m: Moved, angles: seq<int>)
    requires |angles| > 0
    requires MovedInOrder(before, middle, Repeat(MotorDut, |angles| - 1), angles[..|angles| - 1])
    requires |middle| <= |m.conn.written| && m.conn.written[..|middle|] == middle
    requires MoveCommands(m.conn.written[|middle|..]) == [(MotorDut, m.next)]
    requires m.next % StepsPerRev == angles[|angles| - 1]
    ensures MovedInOrder(before, m.conn.written, Repeat(MotorDut, |angles|), angles)
  {
    var n := |angles|;
    var last := angles[n - 1];
    OneMove(middle, m, last);
    MovedInOrderCompose(before, middle, m.conn.written, Repeat(MotorDut, n - 1), angles[..n - 1], [MotorDut], [last]);
    RepeatSnoc(MotorDut, n - 1);
    SplitLast(angles);
  }

  /** A non-empty list is its front followed by its last element. */
  lemma SplitLast(s: seq<int>)
    requires |s| > 0
    ensures s[..|s| - 1] + [s[|s| - 1]] == s
  {
  }

  lemma OneMove(middle: seq<string>, m: Moved, last: int)
    requires |middle| <= |m.conn.written| && m.conn.written[..|middle|] == middle
    requires MoveCommands(m.conn.written[|middle|..]) == [(MotorDut, m.next)]
    requires m.next % StepsPerRev == last
    ensures MovedInOrder(middle, m.conn.written, [MotorDut], [last])
  {
  }

  /** The instrument half of the start-up: ask the analyser to connect and
      give up when it reports that no device is attached. */
  function ConnectVna(vna: Vna): (r: Result<Vna>)
    ensures |vna.replies| >= 1 && vna.replies[0] == "Not connected" ==> r == Err(NotConnected)
    ensures |vna.replies| >= 1 && vna.replies[0] != "Not connected" ==> r.Ok?
    ensures r.Ok? ==> r.value.sent == vna.sent + [Cmd(":DEV:CONN"), Query(":DEV:CONN?")]
    ensures r.Ok? ==> |vna.replies| >= 1 && r.value.replies == vna.replies[1..]
  {
    var dev :- Ask(SendCmd(vna, ":DEV:CONN"), ":DEV:CONN?");
    if dev.text == "Not connected" then Err(NotConnected) else Ok(dev.vna)
  }

  /** The motor half of the start-up: probe the controller, then move every
      motor to its initial position. It completes exactly when the
      controller answers ready and every initial move's polling reaches
      its target. */
  function ReadyAndInit(motor: Conn): (r: Result<(seq<Moved>, Conn)>)
    ensures !ReadyReplies(motor.replies) ==> r == Err(MotorNotReady)
    ensures r.Ok? ==> ReadyReplies(motor.replies)
    ensures r.Ok? ==> MovedInOrder(motor.written, r.value.1.written, [1], InitMotorPositions)
    ensures var probed := MotorReady(motor).conn;
            r.Ok? ==> MovesMade(probed, StepsPerRev, [1], InitMotorPositions, r.value.0)
                      && r.value.1 == LinkAt(probed, r.value.0, |r.value.0|)
                      && MovesLeave(probed.replies, StepsPerRev, InitMotorPositions) == Some(r.value.1.replies)
    ensures (&& ReadyReplies(motor.replies)
             && MovesLeave(MotorReady(motor).conn.replies, StepsPerRev, InitMotorPositions).Some?) ==> r.Ok?
  {
    var probe := MotorReady(motor);
    assert Ids(0, |InitMotorPositions|) == [1];
    if !probe.ready then
      Err(MotorNotReady)
    else
      match InitMotors(probe.conn, InitMotorPositions)
      case Err(e) => Err(e)
      case Ok(m) =>
        ProbeThenInit(motor, probe.conn, m.1.written);
        Ok(m)
  }

  /** The script's start-up: connect the instrument, probe the motor, move
      every motor to its initial position. */
  function Startup(vna: Vna, motor: Conn): (r: Result<(Vna, seq<Moved>, Conn)>)
    ensures |vna.replies| >= 1 && vna.replies[0] == "Not connected" ==> r == Err(NotConnected)
    ensures |vna.replies| >= 1 && vna.replies[0] != "Not connected" && !ReadyReplies(motor.replies) ==>
              r == Err(MotorNotReady)
    ensures r.Ok? ==> ReadyReplies(motor.replies)
    ensures r.Ok? ==> r.value.0.sent == vna.sent + [Cmd(":DEV:CONN"), Query(":DEV:CONN?")]
    ensures r.Ok? ==> |vna.replies| >= 1 && r.value.0.replies == vna.replies[1..]
    ensures r.Ok? ==> MovedInOrder(motor.written, r.value.2.written, [1], InitMotorPositions)
    ensures var probed := MotorReady(motor).conn;
            r.Ok? ==> MovesMade(probed, StepsPerRev, [1], InitMotorPositions, r.value.1)
                      && r.value.2 == LinkAt(probed, r.value.1, |r.value.1|)
                      && MovesLeave(probed.replies, StepsPerRev, InitMotorPositions) == Some(r.value.2.replies)
    ensures (&& |vna.replies| >= 1 && vna.replies[0] != "Not connected" && ReadyReplies(motor.replies)
             && MovesLeave(MotorReady(motor).conn.replies, StepsPerRev, InitMotorPositions).Some?) ==> r.Ok?
  {
    var v :- ConnectVna(vna);
    var m :- ReadyAndInit(motor);
    Ok((v, m.0, m.1))
  }

  lemma ProbeThenInit(motor: Conn, probed: Conn, after: seq<string>)
    requires probed == MotorReady(motor).conn
    requires MovedInOrder(probed.written, after, Ids(0, 1), InitMotorPositions)
    ensures MovedInOrder(motor.written, after, [1], InitMotorPositions)
  {
    assert MovedInOrder(motor.written, probed.written, [], []) by {
      var w := probed.written[|motor.written|..];
      assert w == ["V"] || w == ["V", "K"];
      ShortWritesNoMoves(w);
      assert |motor.written| <= |probed.written| && probed.written[..|motor.written|] == motor.written;
    }
    assert Ids(0, 1) == [1];
    MovedInOrderCompose(motor.written, probed.written, after, [], [], [1], InitMotorPositions);
    assert [] + [1] == [1] && [] + InitMotorPositions == InitMotorPositions;
  }

  /** The whole acquisition: a 360 x 3 matrix, one row per scheduled angle.
      Row i is the stored trace of the i-th acquisition after the connection
      check, and the motor was sent the initial move, then one move per
      scheduled angle, in order. It completes exactly when the instrument
      is connected, the controller answers ready, every move's polling
      reaches its target and every acquisition is answered with a storable
      trace. */
  function Run<F, T>(vna: Vna, motor: Conn, parse: string -> seq<(F, T)>): (r: Result<Swept<T>>)
    ensures r.Ok? ==> |r.value.rows| == NAngles
    ensures r.Ok? ==> forall i :: 0 <= i < NAngles ==> |r.value.rows[i]| == NFreqs
    ensures r.Ok? ==> ReadyReplies(motor.replies)
    ensures r.Ok? ==> Startup(vna, motor).Ok?
                      && Collected(Startup(vna, motor).value.2.written, AngleSchedule(NAngles, StepsPerRev), r.value)
                      && MovesMade(Startup(vna, motor).value.2, StepsPerRev, Repeat(MotorDut, NAngles),
                                   AngleSchedule(NAngles, StepsPerRev), r.value.moves)
    ensures r.Ok? ==> |vna.replies| >= 1 && RowsMeasured(vna.replies[1..], parse, r.value)
    ensures r.Ok? ==> MovedInOrder(motor.written, r.value.motor.written, [1] + Repeat(MotorDut, NAngles),
                                   InitMotorPositions + AngleSchedule(NAngles, StepsPerRev))
    ensures r.Ok? ==> MovesLeave(MotorReady(motor).conn.replies, StepsPerRev,
                                 InitMotorPositions + AngleSchedule(NAngles, StepsPerRev)) == Some(r.value.motor.replies)
    ensures (&& |vna.replies| >= 1 && vna.replies[0] != "Not connected" && ReadyReplies(motor.replies)
             && MovesLeave(MotorReady(motor).conn.replies, StepsPerRev,
                           InitMotorPositions + AngleSchedule(NAngles, StepsPerRev)).Some?
             && TracesStorable(vna.replies[1..], parse, NAngles)) ==> r.Ok?
  {
    var schedule := AngleSchedule(NAngles, StepsPerRev);
    MovesLeaveAppend(MotorReady(motor).conn.replies, StepsPerRev, InitMotorPositions, schedule);
    var (v, ms, m) :- Startup(vna, motor);
    CollectWrites(m, v, schedule, parse);
    CollectRows(m, v, schedule, parse);
    CollectMoveRun(m, v, schedule, parse);
    CollectLeaves(m, v, schedule, parse);
    CollectSucceeds(m, v, schedule, parse);
    var swept :- Collect(m, v, schedule, parse);
    MovedInOrderCompose(motor.written, m.written, swept.motor.written, [1], InitMotorPositions,
                        Repeat(MotorDut, NAngles), schedule);
    Ok(swept)
  }
}

=== FILE: measure_funcs.dfy ===
/** The configuration-driven variant: motor_ready (shared), move_motor with
    the axis and modulus taken from the configuration, measure_vals with a
    centre frequency and zero span, and load_configs, which reads
    `key<separator>value` lines and bounds-checks six of the settings. */
module MeasureFuncs {
  import opened Results
  import opened Text
  import opened PyArith
  import opened SerialLink
  import opened MotorProtocol
  import opened VnaLink

  /** A configuration value: `vna_path` is kept as text, everything else is an int. */
  datatype Value = Int(n: int) | Text(s: string)

  type Config = map<string, Value>

  /** config[key] used where an int is needed: a missing key raises KeyError,
      a text value a TypeError. */
  function IntSetting(cfg: Config, key: string): (r: Result<int>)
    ensures r.Ok? <==> key in cfg && cfg[key].Int?
    ensures r.Ok? ==> r.value == cfg[key].n
    ensures key !in cfg ==> r == Err(MissingKey(key))
  {
    if key !in cfg then Err(MissingKey(key))
    else match cfg[key]
      case Int(n) => Ok(n)
      case Text(_) => Err(NotAnInt(key))
  }

  // ---------------------------------------------------------------------------
  // move_motor

  /** move_motor(conn, config, pos): the axis letter comes from
      config["motor_dut"], the modulus from config["steps_per_rev"]. */
  function MoveMotor(c: Conn, cfg: Config, pos: int): (r: Result<Moved>)
    ensures "motor_dut" !in cfg ==> r == Err(MissingKey("motor_dut"))
    ensures r.Ok? ==> IntSetting(cfg, "motor_dut").Ok? && IntSetting(cfg, "steps_per_rev").Ok?
    ensures r.Ok? ==>
              var id := cfg["motor_dut"].n;
              var steps := cfg["steps_per_rev"].n;
              && steps != 0
              && PyMod(r.value.final, steps) == pos
              && PyMod(r.value.next, steps) == PyMod(pos, steps)
              && r.value.next - PyMod(r.value.next, steps) == r.value.start - PyMod(r.value.start, steps)
              && |r.value.conn.written| > |c.written|
              && AxisLetter(id).Ok?
              && r.value.conn.written[|c.written|] == AxisLetter(id).value
              && MoveCommands(r.value.conn.written[|c.written|..]) == [(id, r.value.next)]
    ensures r.Ok? ==> MoveReadings(c, cfg["steps_per_rev"].n, pos, r.value)
    ensures r.Ok? ==> MoveWritten(c.written, cfg["motor_dut"].n, AxisLetter(cfg["motor_dut"].n).value, r.value)
    ensures var steps := IntSetting(cfg, "steps_per_rev");
            steps.Ok? && steps.value > 0 && !(0 <= pos < steps.value) ==> r.Err?
    ensures var id := IntSetting(cfg, "motor_dut");
            var steps := IntSetting(cfg, "steps_per_rev");
            (id.Ok? && AxisLetter(id.value).Ok? && steps.Ok? && steps.value != 0) ==>
              && (r.Ok? <==> MoveSpan(c.replies, steps.value, pos).Some?)
              && (r.Ok? ==> MoveLeaves(c.replies, steps.value, pos, r.value.conn.replies))
              && (r.Err? ==> r.error == NoPositionToken(MoveStuck(c.replies, steps.value, pos)))
    ensures var id := IntSetting(cfg, "motor_dut");
            && (id.Err? ==> r == Err(id.error))
            && (id.Ok? && AxisLetter(id.value).Err? ==> r == Err(AxisIndex(id.value)))
    ensures var id := IntSetting(cfg, "motor_dut");
            var steps := IntSetting(cfg, "steps_per_rev");
            id.Ok? && AxisLetter(id.value).Ok? && |c.replies| >= 1 && ParsePosition(c.replies[0]).Ok? ==>
              && (steps.Err? ==> r == Err(steps.error))
              && (steps == Ok(0) ==> r == Err(ZeroModulus))
  {
    var id :- IntSetting(cfg, "motor_dut");
    var steps := IntSetting(cfg, "steps_per_rev");
    if AxisLetter(id).Ok? && steps.Ok? && steps.value != 0 then
      MoveSucceeds(c, id, steps.value, pos);
      MoveMotorWith(c, id, steps, pos)
    else
      MoveMotorWith(c, id, steps, pos)
  }

  // ---------------------------------------------------------------------------
  // measure_vals

  /** f"{value}": an int prints in decimal, text prints as itself. */
  function Render(v: Value): string {
    match v
    case Int(n) => IntText(n)
    case Text(s) => s
  }

  /** The f-string values config[key] for each key in turn; the first key
      missing from the configuration raises KeyError. */
  function LookupAll(cfg: Config, keys: seq<string>): (r: Result<seq<string>>)
    ensures r.Ok? <==> forall i :: 0 <= i < |keys| ==> keys[i] in cfg
    ensures r.Ok? ==> |r.value| == |keys|
    ensures r.Ok? ==> forall i :: 0 <= i < |keys| ==> r.value[i] == Render(cfg[keys[i]])
    ensures r.Err? ==> exists i :: 0 <= i < |keys| && keys[i] !in cfg && r.error == MissingKey(keys[i])
                                   && forall j :: 0 <= j < i ==> keys[j] in cfg
    decreases |keys|
  {
    if |keys| == 0 then Ok([])
    else if keys[0] !in cfg then Err(MissingKey(keys[0]))
    else
      match LookupAll(cfg, keys[1..])
      case Err(e) =>
        assert forall i :: 1 <= i < |keys| ==> keys[1..][i - 1] == keys[i];
        Err(e)
      case Ok(rest) => Ok([Render(cfg[keys[0]])] + rest)
  }

  const SetupKeywords: seq<string> :=
    [ ":DEV:MODE", ":VNA:SWEEP", ":VNA:STIM:LVL", ":VNA:ACQ:IFBW", ":VNA:ACQ:AVG",
      ":VNA:ACQ:POINTS", ":VNA:FREQ:CENT", ":VNA:FREQ:ZERO", ":VNA:ACQuisition:SINGLE" ]

  /** The configuration keys the setup commands print, in the order the
      f-strings are evaluated. */
  const SetupKeys: seq<string> := ["stim_pwr", "if_bandwidth", "pts_1", "pts_2", "freq"]

  /** The arguments of the nine setup commands, given the printed values of
      the five settings; the zero-span command has none. */
  function SetupArguments(values: seq<string>): seq<Option<string>>
    requires |values| == |SetupKeys|
  {
    [ Some("VNA"), Some("FREQUENCY"), Some(values[0]), Some(values[1]), Some(values[2]),
      Some(values[3]), Some(values[4]), None, Some("TRUE") ]
  }

  /** The nine commands measure_vals sends before waiting for the sweep.
      They fail exactly when a setting is missing, naming the first one
      missing; otherwise they go out in the script's order, the zero-span
      command bare and every other argument the printed setting. */
  function SetupCommands(cfg: Config): (r: Result<seq<string>>)
    ensures r.Ok? <==> forall i :: 0 <= i < |SetupKeys| ==> SetupKeys[i] in cfg
    ensures r.Err? ==>
              exists i :: 0 <= i < |SetupKeys| && SetupKeys[i] !in cfg && r.error == MissingKey(SetupKeys[i])
                          && forall j :: 0 <= j < i ==> SetupKeys[j] in cfg
    ensures r.Ok? ==>
              && |r.value| == 9
              && (forall i :: 0 <= i < 9 ==> Keyword(r.value[i]) == SetupKeywords[i])
              && Argument(r.value[0]) == Some("VNA") && Argument(r.value[1]) == Some("FREQUENCY")
              && (forall i :: 0 <= i < |SetupKeys| ==> Argument(r.value[i + 2]) == Some(Render(cfg[SetupKeys[i]])))
              && Argument(r.value[7]) == None && Argument(r.value[8]) == Some("TRUE")
  {
    var values :- LookupAll(cfg, SetupKeys);
    var args := SetupArguments(values);
    SetupKeywordsHaveNoSpace();
    CommandLinesFields(SetupKeywords, args);
    SetupArgumentsRender(cfg, values);
    Ok(CommandLines(SetupKeywords, args))
  }

  lemma SetupKeywordsHaveNoSpace()
    ensures forall i :: 0 <= i < |SetupKeywords| ==> ' ' !in SetupKeywords[i]
  {
  }

  /** Each integer setting's argument reads back as the configured value. */
  lemma SetupCommandsOrder(cfg: Config)
    requires forall i :: 0 <= i < |SetupKeys| ==> SetupKeys[i] in cfg
    ensures SetupCommands(cfg).Ok?
    ensures var cmds := SetupCommands(cfg).value;
            forall i :: 0 <= i < |SetupKeys| && cfg[SetupKeys[i]].Int? ==>
              ParseInt(Argument(cmds[i + 2]).value) == Some(cfg[SetupKeys[i]].n)
  {
    forall i | 0 <= i < |SetupKeys|
      ensures cfg[SetupKeys[i]].Int? ==> ParseInt(Render(cfg[SetupKeys[i]])) == Some(cfg[SetupKeys[i]].n)
    {
      RenderRoundTrip(cfg[SetupKeys[i]]);
    }
  }

  lemma SetupArgumentsRender(cfg: Config, values: seq<string>)
    requires |values| == |SetupKeys|
    requires forall i :: 0 <= i < |SetupKeys| ==> SetupKeys[i] in cfg && values[i] == Render(cfg[SetupKeys[i]])
    ensures SetupArguments(values)[7] == None
    ensures forall i :: 0 <= i < |SetupKeys| ==> SetupArguments(values)[i + 2] == Some(Render(cfg[SetupKeys[i]]))
  {
  }

  lemma RenderRoundTrip(v: Value)
    ensures v.Int? ==> ParseInt(Render(v)) == Some(v.n)
  {
    if v.Int? {
      IntTextRoundTrip(v.n);
    }
  }

  /** measure_vals(conn, config) */
  function MeasureVals<F, T>(v: Vna, cfg: Config, parse: string -> seq<(F, T)>): (r: Result<Measured<T>>)
    ensures SetupCommands(cfg).Err? ==> r.Err? && r.error == SetupCommands(cfg).error
    ensures SetupCommands(cfg).Ok? ==> (r.Ok? <==> Pending(v.replies) + 2 <= |v.replies|)
    ensures r.Ok? ==> Delivered(v, SetupCommands(cfg).value, parse, r.value)
  {
    var cmds :- SetupCommands(cfg);
    Acquire(v, cmds, parse)
  }

  // ---------------------------------------------------------------------------
  // load_configs

  /** The separator between key and value on a configuration line (U+1F425). */
  const Separator: char := '\U{1F425}'

  /** text.replace(" ", "") */
  function RemoveSpaces(s: string): (r: string)
    ensures ' ' !in r
    ensures forall c :: c != ' ' ==> multiset(r)[c] == multiset(s)[c]
    ensures ' ' !in s ==> r == s
    ensures |s| == 1 ==> r == if s[0] == ' ' then "" else s
  {
    if |s| == 0 then ""
    else
      var rest := RemoveSpaces(s[1..]);
      assert s == [s[0]] + s[1..];
      if s[0] == ' ' then rest else [s[0]] + rest
  }

  /** Removing spaces works piece by piece, so the characters kept stay in
      their order. */
  lemma {:induction false} RemoveSpacesAppend(a: string, b: string)
    ensures RemoveSpaces(a + b) == RemoveSpaces(a) + RemoveSpaces(b)
    decreases |a|
  {
    if |a| == 0 {
      assert a + b == b;
    } else {
      assert (a + b)[1..] == a[1..] + b;
      RemoveSpacesAppend(a[1..], b);
    }
  }

  /** The keys load_configs checks the bounds of. */
  const CheckedKeys: set<string> := {"freq", "stim_pwr", "if_bandwidth", "motor_dut", "pts_1", "pts_2"}

  /** The bound checks load_configs applies: false exactly when one of its
      ValueErrors is raised; keys it does not name are unchecked. */
  function InBounds(key: string, n: int): (ok: bool)
    ensures !ok <==>
              || (key == "freq" && (n < 100000 || n > 6000000000))
              || (key == "stim_pwr" && (n < -40 || n > 0))
              || (key == "if_bandwidth" && (n < 10 || n > 50000))
              || (key == "motor_dut" && (n < 1 || n > 4))
              || (key == "pts_1" && (n < 1 || n > 99))
              || (key == "pts_2" && n < 2)
    ensures key !in CheckedKeys ==> ok
  {
    if key == "freq" then 100000 <= n <= 6000000000
    else if key == "stim_pwr" then -40 <= n <= 0
    else if key == "if_bandwidth" then 10 <= n <= 50000
    else if key == "motor_dut" then 1 <= n <= 4
    else if key == "pts_1" then 1 <= n <= 99
    else if key == "pts_2" then n >= 2
    else true
  }

  /** A parsed line: the key and its value. */
  type Entry = (string, Value)

  /** An entry of its kind: only vna_path holds text, and checked keys are in bounds. */
  predicate ValidEntry(e: Entry) {
    && (e.1.Text? <==> e.0 == "vna_path")
    && (e.1.Int? ==> InBounds(e.0, e.1.n))
  }

  /** One line: split on the separator, keep `vna_path`'s text without spaces,
      read every other value with int() and check its bounds. */
  function ParseLine(line: string): (r: Result<Entry>)
    ensures Separator !in line ==> r == Err(NoSeparator(line))
    ensures r.Ok? ==> ValidEntry(r.value) && Separator !in r.value.0
    ensures r.Ok? && r.value.1.Text? ==> ' ' !in r.value.1.s
    ensures var parts := Split(line, Separator);
            |parts| >= 2 && parts[0] != "vna_path" && (forall i, j :: !PaddedLiteral(parts[1], i, j)) ==>
              r == Err(BadInt(parts[1]))
    ensures var parts := Split(line, Separator);
            forall i, j :: |parts| >= 2 && parts[0] != "vna_path" && PaddedLiteral(parts[1], i, j) ==>
              r == if InBounds(parts[0], LiteralValue(parts[1][i..j]))
                   then Ok((parts[0], Int(LiteralValue(parts[1][i..j]))))
                   else Err(OutOfRange(parts[0]))
  {
    var parts := Split(line, Separator);
    if |parts| < 2 then
      Err(NoSeparator(line))
    else if parts[0] == "vna_path" then
      Ok((parts[0], Text(RemoveSpaces(parts[1]))))
    else
      var n :- PyInt(parts[1]);
      if InBounds(parts[0], n) then Ok((parts[0], Int(n))) else Err(OutOfRange(parts[0]))
  }

  /** A configuration line as the file holds it: key, separator, value and
      a newline. */
  function ConfigLine(key: string, pre: string, value: string, post: string): string {
    key + [Separator] + pre + value + post + "\n"
  }

  lemma ConfigLineShape(key: string, pre: string, value: string, post: string)
    ensures ConfigLine(key, pre, value, post) == key + [Separator] + (pre + value + post + "\n")
  {
  }

  lemma SeparatorNotInIntText(n: int)
    ensures Separator !in IntText(n)
  {
    var t := IntText(n);
    if n >= 0 {
      assert forall j :: 0 <= j < |t| ==> IsDigit(t[j]);
    } else {
      assert forall j :: 1 <= j < |t| ==> t[1..][j - 1] == t[j] && IsDigit(t[j]);
    }
  }

  lemma SeparatorNotInSpace(s: string)
    requires AllSpace(s)
    ensures Separator !in s
  {
  }

  /** The value field of a line whose value holds no separator is all of the
      text after the separator. */
  lemma ValueField(key: string, rest: string)
    requires Separator !in key && Separator !in rest
    ensures |Split(key + [Separator] + rest, Separator)| >= 2
    ensures Split(key + [Separator] + rest, Separator)[0] == key
    ensures Split(key + [Separator] + rest, Separator)[1] == rest
  {
    var line := key + [Separator] + rest;
    assert line[|key|] == Separator;
    SplitFields(key, Separator, rest);
    assert rest[..IndexOf(rest, Separator)] == rest;
  }

  /** An integer line parses back to its key and value when the value is in
      bounds, and is rejected naming the key otherwise; blanks around the
      number are allowed. */
  lemma IntLineRoundTrip(key: string, pre: string, n: int, post: string)
    requires Separator !in key && key != "vna_path"
    requires AllSpace(pre) && AllSpace(post)
    ensures ParseLine(ConfigLine(key, pre, IntText(n), post))
            == if InBounds(key, n) then Ok((key, Int(n))) else Err(OutOfRange(key))
  {
    var rest := pre + IntText(n) + post + "\n";
    ConfigLineShape(key, pre, IntText(n), post);
    SeparatorNotInIntText(n);
    SeparatorNotInSpace(pre);
    SeparatorNotInSpace(post + "\n");
    assert Separator !in rest by {
      assert rest == pre + IntText(n) + (post + "\n");
    }
    ValueField(key, rest);
    assert AllSpace(post + "\n");
    PyIntPadded(pre, n, post + "\n");
    assert rest == pre + IntText(n) + (post + "\n");
  }

  /** A vna_path line keeps its text with the spaces removed (the newline
      stays). */
  lemma PathLineRoundTrip(pre: string, path: string, post: string)
    requires Separator !in pre + path + post
    ensures ParseLine(ConfigLine("vna_path", pre, path, post))
            == Ok(("vna_path", Text(RemoveSpaces(pre + path + post + "\n"))))
  {
    ConfigLineShape("vna_path", pre, path, post);
    TextLineParse("vna_path", pre + path + post + "\n");
  }

  lemma TextLineParse(key: string, rest: string)
    requires key == "vna_path"
    requires Separator !in rest
    ensures ParseLine(key + [Separator] + rest) == Ok((key, Text(RemoveSpaces(rest))))
  {
    ValueField(key, rest);
  }

  /** Every key holds a value of its kind, and every checked key is in bounds. */
  predicate ValidConfig(cfg: Config) {
    forall k :: k in cfg ==> ValidEntry((k, cfg[k]))
  }

  /** The lines read before the loop stops at an empty read. readline()
      returns "" only at end of file (a blank line still holds its newline),
      so this is the whole file when it is given as its readline() results. */
  function ReadUntilEnd(lines: seq<string>): (r: seq<string>)
    ensures r <= lines
    ensures forall i :: 0 <= i < |r| ==> r[i] != ""
    ensures |r| < |lines| ==> lines[|r|] == ""
  {
    if |lines| == 0 || lines[0] == "" then [] else [lines[0]] + ReadUntilEnd(lines[1..])
  }

  /** The keys of a run of entries. */
  function EntryKeys(entries: seq<Entry>): set<string> {
    set i | 0 <= i < |entries| :: entries[i].0
  }

  /** The dictionary stores of the loop, in order: a later entry overrides
      an earlier one with the same key. */
  function Store(entries: seq<Entry>): (cfg: Config)
    ensures cfg.Keys == EntryKeys(entries)
    ensures (forall i :: 0 <= i < |entries| ==> ValidEntry(entries[i])) ==> ValidConfig(cfg)
    decreases |entries|
  {
    if |entries| == 0 then map[]
    else
      var init := entries[..|entries| - 1];
      var e := entries[|entries| - 1];
      StoreStep(entries);
      Store(init)[e.0 := e.1]
  }

  lemma StoreStep(entries: seq<Entry>)
    requires |entries| > 0
    ensures EntryKeys(entries) == EntryKeys(entries[..|entries| - 1]) + {entries[|entries| - 1].0}
    ensures forall i :: 0 <= i < |entries| - 1 ==> entries[..|entries| - 1][i] == entries[i]
  {
    var init := entries[..|entries| - 1];
    forall k | k in EntryKeys(entries) ensures k in EntryKeys(init) + {entries[|entries| - 1].0} {
      var i :| 0 <= i < |entries| && entries[i].0 == k;
      if i < |init| {
        assert init[i] == entries[i];
      }
    }
    forall k | k in EntryKeys(init) ensures k in EntryKeys(entries) {
      var i :| 0 <= i < |init| && init[i].0 == k;
      assert init[i] == entries[i];
    }
  }

  /** The last entry naming a key decides its value. */
  lemma {:induction false} LastEntryWins(entries: seq<Entry>, i: nat)
    requires i < |entries|
    requires forall j :: i < j < |entries| ==> entries[j].0 != entries[i].0
    ensures Store(entries)[entries[i].0] == entries[i].1
    decreases |entries|
  {
    var init := entries[..|entries| - 1];
    if i < |entries| - 1 {
      assert init[i] == entries[i];
      assert forall j :: i < j < |init| ==> init[j] == entries[j];
      LastEntryWins(init, i);
    }
  }

  /** The loop body over the lines in order: the first bad line raises,
      otherwise the entries are stored in order. */
  function LoadLines(lines: seq<string>): (r: Result<seq<Entry>>)
    ensures r.Ok? <==> AllParse(lines)
    ensures r.Err? ==> exists i :: 0 <= i < |lines| && ParseLine(lines[i]).Err?
                                   && r.error == ParseLine(lines[i]).error
                                   && forall j :: 0 <= j < i ==> ParseLine(lines[j]).Ok?
    ensures r.Ok? ==> |r.value| == |lines| && forall i :: 0 <= i < |lines| ==> r.value[i] == ParseLine(lines[i]).value
    decreases |lines|
  {
    if |lines| == 0 then Ok([])
    else
      match ParseLine(lines[0])
      case Err(e) => Err(e)
      case Ok(entry) =>
        match LoadLines(lines[1..])
        case Err(e) =>
          LaterLineFails(lines, e);
          Err(e)
        case Ok(rest) =>
          LinesParsed(lines, entry, rest);
          Ok([entry] + rest)
  }

  lemma LaterLineFails(lines: seq<string>, e: Error)
    requires |lines| > 0 && ParseLine(lines[0]).Ok?
    requires var later := lines[1..];
             exists i :: 0 <= i < |later| && ParseLine(later[i]).Err? && e == ParseLine(later[i]).error
                         && forall j :: 0 <= j < i ==> ParseLine(later[j]).Ok?
    ensures !AllParse(lines)
    ensures exists i :: 0 <= i < |lines| && ParseLine(lines[i]).Err? && e == ParseLine(lines[i]).error
                        && forall j :: 0 <= j < i ==> ParseLine(lines[j]).Ok?
  {
    var later := lines[1..];
    var i :| 0 <= i < |later| && ParseLine(later[i]).Err? && e == ParseLine(later[i]).error
             && forall j :: 0 <= j < i ==> ParseLine(later[j]).Ok?;
    assert later[i] == lines[i + 1];
    forall j | 0 <= j < i + 1
      ensures ParseLine(lines[j]).Ok?
    {
      if j > 0 {
        assert lines[j] == later[j - 1];
      }
    }
  }

  lemma LinesParsed(lines: seq<string>, entry: Entry, rest: seq<Entry>)
    requires |lines| > 0 && ParseLine(lines[0]) == Ok(entry)
    requires AllParse(lines[1..])
    requires |rest| == |lines| - 1 && forall i :: 0 <= i < |rest| ==> rest[i] == ParseLine(lines[1..][i]).value
    ensures AllParse(lines)
    ensures forall i :: 0 <= i < |lines| ==> ([entry] + rest)[i] == ParseLine(lines[i]).value
  {
    forall i | 1 <= i < |lines|
      ensures ParseLine(lines[i]).Ok? && ([entry] + rest)[i] == ParseLine(lines[i]).value
    {
      assert lines[1..][i - 1] == lines[i];
    }
  }

  /** load_configs over the readline() results of the file: it succeeds
      exactly when every line before end of file parses, and otherwise
      raises the first bad line's error; a loaded configuration is valid and
      holds exactly the keys those lines name. */
  function LoadConfigs(lines: seq<string>): (r: Result<Config>)
    ensures r.Ok? <==> AllParse(ReadUntilEnd(lines))
    ensures r.Err? ==>
              var read := ReadUntilEnd(lines);
              exists i :: 0 <= i < |read| && ParseLine(read[i]).Err? && r.error == ParseLine(read[i]).error
                          && forall j :: 0 <= j < i ==> ParseLine(read[j]).Ok?
    ensures r.Ok? ==> ValidConfig(r.value) && r.value.Keys == LineKeys(ReadUntilEnd(lines))
  {
    var read := ReadUntilEnd(lines);
    match LoadLines(read)
    case Err(e) => Err(e)
    case Ok(entries) =>
      assert forall i :: 0 <= i < |entries| ==> ValidEntry(entries[i]);
      EntryKeysOfLines(read, entries);
      Ok(Store(entries))
  }

  /** The keys named by those of the lines that parse. */
  function LineKeys(lines: seq<string>): set<string> {
    set i | 0 <= i < |lines| && ParseLine(lines[i]).Ok? :: ParseLine(lines[i]).value.0
  }

  lemma EntryKeysOfLines(lines: seq<string>, entries: seq<Entry>)
    requires |entries| == |lines|
    requires forall i :: 0 <= i < |lines| ==> ParseLine(lines[i]) == Ok(entries[i])
    ensures EntryKeys(entries) == LineKeys(lines)
  {
    forall k | k in EntryKeys(entries) ensures k in LineKeys(lines) {
      var i :| 0 <= i < |entries| && entries[i].0 == k;
      assert ParseLine(lines[i]).value.0 == k;
    }
    forall k | k in LineKeys(lines) ensures k in EntryKeys(entries) {
      var i :| 0 <= i < |lines| && ParseLine(lines[i]).Ok? && ParseLine(lines[i]).value.0 == k;
      assert entries[i].0 == k;
    }
  }

  /** Every line parses. */
  predicate AllParse(lines: seq<string>) {
    forall i :: 0 <= i < |lines| ==> ParseLine(lines[i]).Ok?
  }

  /** The value stored for a key is that of the last line read that names it. */
  lemma LastLineWins(lines: seq<string>, i: nat)
    requires LoadConfigs(lines).Ok?
    requires i < |ReadUntilEnd(lines)|
    requires var read := ReadUntilEnd(lines);
             forall j :: i < j < |read| ==> ParseLine(read[j]).value.0 != ParseLine(read[i]).value.0
    ensures var e := ParseLine(ReadUntilEnd(lines)[i]).value;
            LoadConfigs(lines).value[e.0] == e.1
  {
    var entries := LoadLines(ReadUntilEnd(lines)).value;
    LastEntryWins(entries, i);
  }

  /** A loaded configuration names a real axis: motor_dut is 1 to 4, so the
      POS_CHECK lookup gives one of X, Y, Z, T. */
  lemma LoadedMotorHasAxis(lines: seq<string>)
    requires LoadConfigs(lines).Ok?
    requires "motor_dut" in LoadConfigs(lines).value
    ensures IntSetting(LoadConfigs(lines).value, "motor_dut").Ok?
    ensures var id := IntSetting(LoadConfigs(lines).value, "motor_dut").value;
            1 <= id <= 4 && AxisLetter(id).Ok? && AxisLetter(id).value in ["X", "Y", "Z", "T"]
  {
    var cfg := LoadConfigs(lines).value;
    assert ValidEntry(("motor_dut", cfg["motor_dut"]));
  }
}

=== FILE: motor_protocol.dfy ===
/** The rotator's serial line protocol, shared by both scripts: the readiness
    probe, the position query and its reply parsing, the same-revolution
    target arithmetic, the absolute move command and the convergence poll. */
module MotorProtocol {
  import opened Results
  import opened Text
  import opened PyArith
  import opened SerialLink

  /** Position-query letter per motor id; index 0 is an unused placeholder. */
  const PosCheck: seq<string> := ["", "X", "Y", "Z", "T"]

  /** POS_CHECK[motor_id], with Python's list indexing: negative ids count
      from the end, anything else outside the list raises IndexError. */
  function AxisLetter(motorId: int): (r: Result<string>)
    ensures r.Ok? <==> -|PosCheck| <= motorId < |PosCheck|
    ensures r.Err? ==> r.error == AxisIndex(motorId)
    ensures r.Ok? ==> |r.value| <= 1
    ensures 1 <= motorId <= 4 ==> r == Ok(["XYZT"[motorId - 1]])
  {
    if 0 <= motorId < |PosCheck| then Ok(PosCheck[motorId])
    else if -|PosCheck| <= motorId < 0 then Ok(PosCheck[|PosCheck| + motorId])
    else Err(AxisIndex(motorId))
  }

  // ---------------------------------------------------------------------------
  // Readiness probe

  datatype Probe = Probe(ready: bool, conn: Conn)

  /** The reply sequences that mean "ready": `R`, or `B` followed by `R`. */
  predicate ReadyReplies(replies: seq<string>) {
    || (|replies| >= 1 && replies[0] == "R")
    || (|replies| >= 2 && replies[..2] == ["B", "R"])
  }

  /** motor_ready: send `V`; `R` means ready; `B` makes it send `K` and read
      one more reply, which must be `R`; anything else means not ready. */
  function MotorReady(c: Conn): (p: Probe)
    ensures p.ready <==> ReadyReplies(c.replies)
    ensures var busy := |c.replies| > 0 && c.replies[0] == "B";
            p.conn.written == c.written + (if busy then ["V", "K"] else ["V"])
    ensures var used := |c.replies| - |p.conn.replies|;
            0 <= used <= 2 && p.conn.replies == c.replies[used..]
  {
    var first := ReadLine(Write(c, "V"));
    if first.line == "R" then
      Probe(true, first.conn)
    else if first.line == "B" then
      var second := ReadLine(Write(first.conn, "K"));
      Probe(second.line == "R", second.conn)
    else
      Probe(false, first.conn)
  }

  /** The probe writes `V` first, writes `K` exactly when the first reply was
      `B`, and never sends `V` again after `K`. */
  lemma MotorReadyWrites(c: Conn)
    ensures var w := MotorReady(c).conn.written[|c.written|..];
            && 1 <= |w| <= 2
            && w[0] == "V"
            && ("K" in w <==> |c.replies| > 0 && c.replies[0] == "B")
            && (forall i :: 0 <= i < |w| && w[i] == "K" ==> forall j :: i < j < |w| ==> w[j] != "V")
  {
    var w := MotorReady(c).conn.written[|c.written|..];
    if |c.replies| > 0 && c.replies[0] == "B" {
      assert w == ["V", "K"];
    } else {
      assert w == ["V"];
    }
  }

  // ---------------------------------------------------------------------------
  // Position replies: the first match of the pattern [+-]\d+

  /** A match of [+-]\d+ starts at i. */
  predicate TokenAt(s: string, i: int) {
    0 <= i && i + 1 < |s| && IsSign(s[i]) && IsDigit(s[i + 1])
  }

  /** The leftmost match at or after `from`, or |s| when there is none. */
  function FirstToken(s: string, from: nat): (i: nat)
    requires from <= |s|
    ensures from <= i <= |s|
    ensures i < |s| ==> TokenAt(s, i)
    ensures forall j :: from <= j < i ==> !TokenAt(s, j)
    decreases |s| - from
  {
    if from == |s| then |s| else if TokenAt(s, from) then from else FirstToken(s, from + 1)
  }

  /** Length of the greedy run of digits starting at i. */
  function DigitRun(s: string, i: nat): (n: nat)
    requires i <= |s|
    ensures i + n <= |s|
    ensures forall k :: i <= k < i + n ==> IsDigit(s[k])
    ensures i + n == |s| || !IsDigit(s[i + n])
    decreases |s| - i
  {
    if i < |s| && IsDigit(s[i]) then 1 + DigitRun(s, i + 1) else 0
  }

  /** int(re.findall(r"[+-]\d+", reply)[0]): the value of the leftmost signed
      integer token; a reply without one raises IndexError. */
  function ParsePosition(reply: string): (r: Result<int>)
    ensures r.Err? ==> r.error == NoPositionToken(reply)
  {
    var i := FirstToken(reply, 0);
    if i == |reply| then
      Err(NoPositionToken(reply))
    else
      var n := DigitRun(reply, i + 1);
      var magnitude: int := DigitsValue(reply[i + 1..i + 1 + n]);
      Ok(if reply[i] == '-' then -magnitude else magnitude)
  }

  /** A reply fails to parse exactly when no signed-integer token occurs in it. */
  lemma ParsePositionFails(reply: string)
    ensures ParsePosition(reply).Err? <==> forall i :: 0 <= i < |reply| ==> !TokenAt(reply, i)
  {
    var i := FirstToken(reply, 0);
    if i < |reply| {
      assert TokenAt(reply, i);
    }
  }

  /** How a controller writes a signed position: an explicit sign, then digits. */
  function SignedText(n: int): string {
    (if n < 0 then "-" else "+") + NatText(Abs(n))
  }

  lemma {:induction false} FirstTokenIs(s: string, from: nat, i: nat)
    requires from <= i < |s| && TokenAt(s, i)
    requires forall j :: from <= j < i ==> !TokenAt(s, j)
    ensures FirstToken(s, from) == i
    decreases i - from
  {
    if from < i {
      FirstTokenIs(s, from + 1, i);
    }
  }

  lemma {:induction false} DigitRunIs(s: string, i: nat, n: nat)
    requires i + n <= |s|
    requires forall k :: i <= k < i + n ==> IsDigit(s[k])
    requires i + n == |s| || !IsDigit(s[i + n])
    ensures DigitRun(s, i) == n
    decreases n
  {
    if n > 0 {
      DigitRunIs(s, i + 1, n - 1);
    }
  }

  /** A reply that carries a sign and a run of digits (zero padding
      included) after text without a token, not followed by another digit,
      parses to that signed run's value. */
  lemma PositionRoundTrip(prefix: string, sign: char, d: string, suffix: string)
    requires forall i :: 0 <= i < |prefix| ==> !TokenAt(prefix, i)
    requires IsSign(sign) && |d| >= 1 && AllDigits(d)
    requires |suffix| == 0 || !IsDigit(suffix[0])
    ensures ParsePosition(prefix + [sign] + d + suffix) == Ok(SignedValue(sign, d))
  {
    var s := prefix + [sign] + d + suffix;
    var p := |prefix|;
    TokenAfterPrefix(prefix, sign, d, suffix);
    FirstTokenIs(s, 0, p);
    DigitsAfterSign(prefix, sign, d, suffix);
    DigitRunIs(s, p + 1, |d|);
    assert s[p] == sign;
  }

  /** In particular a controller's own rendering of a position reads back. */
  lemma SignedPositionRoundTrip(prefix: string, n: int, suffix: string)
    requires forall i :: 0 <= i < |prefix| ==> !TokenAt(prefix, i)
    requires |suffix| == 0 || !IsDigit(suffix[0])
    ensures ParsePosition(prefix + SignedText(n) + suffix) == Ok(n)
  {
    var d := NatText(Abs(n));
    var sign := if n < 0 then '-' else '+';
    assert prefix + SignedText(n) + suffix == prefix + [sign] + d + suffix;
    PositionRoundTrip(prefix, sign, d, suffix);
    NatTextValue(Abs(n));
  }

  /** The signed number is the first token of the reply. */
  lemma TokenAfterPrefix(prefix: string, sign: char, d: string, suffix: string)
    requires forall i :: 0 <= i < |prefix| ==> !TokenAt(prefix, i)
    requires IsSign(sign) && |d| >= 1 && AllDigits(d)
    ensures TokenAt(prefix + [sign] + d + suffix, |prefix|)
    ensures forall j :: 0 <= j < |prefix| ==> !TokenAt(prefix + [sign] + d + suffix, j)
  {
    var s := prefix + [sign] + d + suffix;
    var p := |prefix|;
    assert s[p] == sign;
    assert s[p + 1] == d[0] && IsDigit(d[0]);
    forall j | 0 <= j < p
      ensures !TokenAt(s, j)
    {
      assert s[j] == prefix[j];
      if j + 1 < p {
        assert s[j + 1] == prefix[j + 1];
        assert !TokenAt(prefix, j);
      } else {
        assert s[j + 1] == sign;
      }
    }
  }

  /** After the sign come exactly the digits of the run. */
  lemma DigitsAfterSign(prefix: string, sign: char, d: string, suffix: string)
    requires AllDigits(d)
    requires |suffix| == 0 || !IsDigit(suffix[0])
    ensures var s := prefix + [sign] + d + suffix;
            && |prefix| + 1 + |d| <= |s|
            && s[|prefix| + 1..|prefix| + 1 + |d|] == d
            && (forall k :: |prefix| + 1 <= k < |prefix| + 1 + |d| ==> IsDigit(s[k]))
            && (|prefix| + 1 + |d| == |s| || !IsDigit(s[|prefix| + 1 + |d|]))
  {
    var s := prefix + [sign] + d + suffix;
    var p := |prefix|;
    assert s[p + 1..p + 1 + |d|] == d;
    forall k | p + 1 <= k < p + 1 + |d|
      ensures IsDigit(s[k])
    {
      assert s[k] == d[k - p - 1];
    }
    if p + 1 + |d| < |s| {
      assert s[p + 1 + |d|] == suffix[0];
    }
  }

  // ---------------------------------------------------------------------------
  // Same-revolution target

  /** next_pos = current_pos - current_pos % S + pos % S: keep the controller's
      revolution count and take the target's place within the revolution. */
  function NextPosition(current: int, pos: int, steps: int): (next: int)
    requires steps != 0
    ensures PyMod(next, steps) == PyMod(pos, steps)
    ensures next - PyMod(next, steps) == current - PyMod(current, steps)
    ensures FloorDiv(next, steps) == FloorDiv(current, steps)
    ensures current - Abs(steps) < next < current + Abs(steps)
  {
    var next := current - PyMod(current, steps) + PyMod(pos, steps);
    FloorDivUnique(next, steps, FloorDiv(current, steps), PyMod(pos, steps));
    next
  }

  // ---------------------------------------------------------------------------
  // Absolute move command

  const MovePrefix := "C E IA"
  const MoveSuffix := ",R"

  /** f"C E IA{motor_id}M{next_pos},R": the controller reads back exactly
      the axis and target the host wrote. The ensures gives that round trip;
      the exact text (str() of each number, no sign or padding added) is
      the body's. */
  function MoveCommand(motorId: int, target: int): (cmd: string)
    ensures ParseMoveCommand(cmd) == Some((motorId, target))
  {
    var body := IntText(motorId) + "M" + IntText(target);
    var cmd := MovePrefix + IntText(motorId) + "M" + IntText(target) + MoveSuffix;
    assert cmd == MovePrefix + body + MoveSuffix;
    MoveFrame(cmd, body);
    MoveBodyRoundTrip(motorId, target);
    cmd
  }

  /** The controller's reading of a move command: axis id and target. */
  function ParseMoveCommand(cmd: string): Option<(int, int)> {
    if |cmd| >= |MovePrefix| + |MoveSuffix|
       && cmd[..|MovePrefix|] == MovePrefix
       && cmd[|cmd| - |MoveSuffix|..] == MoveSuffix
    then
      ParseMoveBody(cmd[|MovePrefix|..|cmd| - |MoveSuffix|])
    else None
  }

  /** The part between prefix and suffix: `<id>M<target>`. */
  function ParseMoveBody(body: string): Option<(int, int)> {
    var m := IndexOf(body, 'M');
    if m < |body| then
      match (ParseInt(body[..m]), ParseInt(body[m + 1..]))
      case (Some(id), Some(target)) => Some((id, target))
      case _ => None
    else None
  }

  lemma IntTextHasNoM(n: int)
    ensures forall j :: 0 <= j < |IntText(n)| ==> IntText(n)[j] != 'M'
  {
    var t := IntText(n);
    forall j | 0 <= j < |t|
      ensures t[j] != 'M'
    {
      if n < 0 && j > 0 {
        assert t[j] == t[1..][j - 1];
      }
    }
  }

  lemma MoveFrame(cmd: string, body: string)
    requires cmd == MovePrefix + body + MoveSuffix
    ensures ParseMoveCommand(cmd) == ParseMoveBody(body)
  {
    assert cmd[..|MovePrefix|] == MovePrefix;
    assert cmd[|cmd| - |MoveSuffix|..] == MoveSuffix;
    assert cmd[|MovePrefix|..|cmd| - |MoveSuffix|] == body;
  }

  lemma MoveBodyRoundTrip(motorId: int, target: int)
    ensures ParseMoveBody(IntText(motorId) + "M" + IntText(target)) == Some((motorId, target))
  {
    var a, b := IntText(motorId), IntText(target);
    var body := a + "M" + b;
    IntTextHasNoM(motorId);
    assert forall j :: 0 <= j < |a| ==> body[j] != 'M';
    assert body[|a|] == 'M';
    assert IndexOf(body, 'M') == |a|;
    assert body[..|a|] == a;
    assert body[|a| + 1..] == b;
    IntTextRoundTrip(motorId);
    IntTextRoundTrip(target);
  }

  /** The move commands among a sequence of writes, decoded, in order. */
  function MoveCommands(ws: seq<string>): seq<(int, int)> {
    if |ws| == 0 then []
    else
      MoveCommands(ws[..|ws| - 1])
      + match ParseMoveCommand(ws[|ws| - 1]) case Some(p) => [p] case None => []
  }

  lemma {:induction false} MoveCommandsAppend(a: seq<string>, b: seq<string>)
    ensures MoveCommands(a + b) == MoveCommands(a) + MoveCommands(b)
    decreases |b|
  {
    if |b| == 0 {
      assert a + b == a;
    } else {
      assert (a + b)[..|a + b| - 1] == a + b[..|b| - 1];
      MoveCommandsAppend(a, b[..|b| - 1]);
    }
  }

  /** Position queries (at most one letter) are never read as move commands. */
  lemma {:induction false} ShortWritesNoMoves(ws: seq<string>)
    requires forall i :: 0 <= i < |ws| ==> |ws[i]| <= 1
    ensures MoveCommands(ws) == []
  {
    if |ws| > 0 {
      ShortWritesNoMoves(ws[..|ws| - 1]);
    }
  }

  // ---------------------------------------------------------------------------
  // Moving

  /** A completed move: the position read before moving, the absolute target
      commanded, the last position read, and the connection afterwards.
      (move_motor itself only returns True.) */
  datatype Moved = Moved(start: int, next: int, final: int, conn: Conn)

  /** The replies a polling loop consumed: each reading before the last
      parses to a position not congruent to `pos`, and the last parses to
      `final`. */
  predicate PolledReplies(consumed: seq<string>, steps: int, pos: int, final: int)
    requires steps != 0
  {
    && |consumed| > 0
    && ParsePosition(consumed[|consumed| - 1]) == Ok(final)
    && forall j :: 0 <= j < |consumed| - 1 ==>
         ParsePosition(consumed[j]).Ok? && PyMod(ParsePosition(consumed[j]).value, steps) != pos
  }

  lemma PolledCons(first: string, rest: seq<string>, steps: int, pos: int, p: int, final: int)
    requires steps != 0
    requires ParsePosition(first) == Ok(p) && PyMod(p, steps) != pos
    requires PolledReplies(rest, steps, pos, final)
    ensures PolledReplies([first] + rest, steps, pos, final)
  {
    var all := [first] + rest;
    forall j | 0 <= j < |all| - 1
      ensures ParsePosition(all[j]).Ok? && PyMod(ParsePosition(all[j]).value, steps) != pos
    {
      if j > 0 {
        assert all[j] == rest[j - 1];
      }
    }
    assert all[|all| - 1] == rest[|rest| - 1];
  }

  /** One more reading in front of the readings of the rest of the loop. */
  lemma PollStepReplies(replies: seq<string>, k: nat, steps: int, pos: int, p: int, final: int)
    requires steps != 0 && k < |replies|
    requires ParsePosition(replies[0]) == Ok(p)
    requires PyMod(p, steps) == pos ==> k == 0 && final == p
    requires PyMod(p, steps) != pos ==> PolledReplies(replies[1..][..k], steps, pos, final)
    ensures PolledReplies(replies[..k + 1], steps, pos, final)
  {
    if PyMod(p, steps) != pos {
      assert replies[..k + 1] == [replies[0]] + replies[1..][..k];
      PolledCons(replies[0], replies[1..][..k], steps, pos, p, final);
    } else {
      assert replies[..1] == [replies[0]];
    }
  }

  /** The readings of a polling loop that stops: each before the last parses
      to a position off `pos`, and the last parses to `final`, which is on it. */
  predicate Converging(consumed: seq<string>, steps: int, pos: int, final: int)
    requires steps != 0
  {
    PolledReplies(consumed, steps, pos, final) && PyMod(final, steps) == pos
  }

  /** Where a polling loop over `readings` stops: how many readings it takes,
      up to and including the first one congruent to `pos`, and that position.
      None when a reading without a position token comes first, or when no
      reading is congruent. */
  function ConvergedAt(readings: seq<string>, steps: int, pos: int): (r: Option<(nat, int)>)
    requires steps != 0
    ensures r.Some? ==> 0 < r.value.0 <= |readings| && Converging(readings[..r.value.0], steps, pos, r.value.1)
    decreases |readings|
  {
    if |readings| == 0 then None
    else match ParsePosition(readings[0])
      case Err(_) => None
      case Ok(p) =>
        if PyMod(p, steps) == pos then
          assert readings[..1] == [readings[0]];
          Some((1, p))
        else match ConvergedAt(readings[1..], steps, pos)
          case None => None
          case Some((k, f)) =>
            assert readings[..k + 1] == [readings[0]] + readings[1..][..k];
            PolledCons(readings[0], readings[1..][..k], steps, pos, p, f);
            Some((k + 1, f))
  }

  /** The reply a polling loop over `readings` fails on when ConvergedAt
      finds no stop: the first reading without a position token, or the
      empty read once the replies run out. */
  function StuckOn(readings: seq<string>, steps: int, pos: int): (reply: string)
    requires steps != 0
    ensures ConvergedAt(readings, steps, pos).None? ==> ParsePosition(reply).Err?
    decreases |readings|
  {
    if |readings| == 0 then ""
    else match ParsePosition(readings[0])
      case Err(_) => readings[0]
      case Ok(p) => if PyMod(p, steps) == pos then "" else StuckOn(readings[1..], steps, pos)
  }

  /** A run of readings that stops the loop is the one ConvergedAt finds:
      the loop stops at the first congruent reading and nowhere else. */
  lemma {:induction false} ConvergedAtFinds(readings: seq<string>, steps: int, pos: int, k: nat, f: int)
    requires steps != 0 && 0 < k <= |readings|
    requires Converging(readings[..k], steps, pos, f)
    ensures ConvergedAt(readings, steps, pos) == Some((k, f))
    decreases k
  {
    var run := readings[..k];
    assert run[0] == readings[0];
    if k > 1 {
      var p := ParsePosition(readings[0]).value;
      assert PyMod(p, steps) != pos;
      var tail := readings[1..][..k - 1];
      assert tail == run[1..];
      assert tail[k - 2] == run[k - 1];
      forall j | 0 <= j < k - 2
        ensures ParsePosition(tail[j]).Ok? && PyMod(ParsePosition(tail[j]).value, steps) != pos
      {
        assert tail[j] == run[j + 1];
      }
      ConvergedAtFinds(readings[1..], steps, pos, k - 1, f);
    }
  }

  /** What the convergence loop promises from connection `c` and last
      reading `current`: see PollReads and PollStops. */
  ghost predicate PollSpec(c: Conn, letter: string, steps: int, pos: int, current: int, r: Result<(int, Conn)>)
    requires steps != 0
  {
    PollReads(c, letter, steps, pos, current, r) && PollStops(c, letter, steps, pos, current, r)
  }

  /** What the loop reads and what it returns: see PollOutcome and PollFinds. */
  ghost predicate PollReads(c: Conn, letter: string, steps: int, pos: int, current: int, r: Result<(int, Conn)>)
    requires steps != 0
  {
    PollOutcome(c, letter, steps, pos, current, r) && PollFinds(c, letter, steps, pos, current, r)
  }

  /** On success the final reading is congruent to `pos`, one letter was
      written per reply consumed, nothing was consumed if the motor was
      already there, and otherwise the consumed replies are the readings of
      the loop; a first reading without a position token raises IndexError. */
  ghost predicate PollOutcome(c: Conn, letter: string, steps: int, pos: int, current: int, r: Result<(int, Conn)>)
    requires steps != 0
  {
    && (r.Ok? ==>
          var k := |c.replies| - |r.value.1.replies|;
          && PyMod(r.value.0, steps) == pos
          && 0 <= k
          && r.value.1.replies == c.replies[k..]
          && r.value.1.written == c.written + Repeat(letter, k)
          && (PyMod(current, steps) != pos ==> PolledReplies(c.replies[..k], steps, pos, r.value.0)))
    && (PyMod(current, steps) == pos ==> r == Ok((current, c)))
    && (PyMod(current, steps) != pos && (|c.replies| == 0 || ParsePosition(c.replies[0]).Err?) ==>
          r == Err(NoPositionToken(if |c.replies| == 0 then "" else c.replies[0])))
  }

  /** The loop returns exactly when ConvergedAt finds a stop, with that
      position and after that many queries; otherwise it raises IndexError
      on the reply StuckOn names. */
  ghost predicate PollFinds(c: Conn, letter: string, steps: int, pos: int, current: int, r: Result<(int, Conn)>)
    requires steps != 0
  {
    PyMod(current, steps) != pos ==>
      match ConvergedAt(c.replies, steps, pos)
      case None => r == Err(NoPositionToken(StuckOn(c.replies, steps, pos)))
      case Some((k, f)) => r == Ok((f, Conn(c.replies[k..], c.written + Repeat(letter, k))))
  }

  /** Against replies that bring the motor onto `pos` after k readings, the
      loop returns that reading after k queries. */
  ghost predicate PollStops(c: Conn, letter: string, steps: int, pos: int, current: int, r: Result<(int, Conn)>)
    requires steps != 0
  {
    PyMod(current, steps) != pos ==>
      forall k: nat, f :: 0 < k <= |c.replies| && Converging(c.replies[..k], steps, pos, f) ==>
        r == Ok((f, Conn(c.replies[k..], c.written + Repeat(letter, k))))
  }

  lemma PollStopsFromReads(c: Conn, letter: string, steps: int, pos: int, current: int, r: Result<(int, Conn)>)
    requires steps != 0
    requires PollReads(c, letter, steps, pos, current, r)
    ensures PollStops(c, letter, steps, pos, current, r)
  {
    if PyMod(current, steps) != pos {
      forall k: nat, f | 0 < k <= |c.replies| && Converging(c.replies[..k], steps, pos, f)
        ensures r == Ok((f, Conn(c.replies[k..], c.written + Repeat(letter, k))))
      {
        ConvergedAtFinds(c.replies, steps, pos, k, f);
      }
    }
  }

  /** The convergence loop: while current_pos % S != pos, query the position
      again. The loop compares with the raw pos, not pos % S, and a reply
      without a position token raises IndexError. */
  function Poll(c: Conn, letter: string, steps: int, pos: int, current: int): (r: Result<(int, Conn)>)
    requires steps != 0
    ensures PollSpec(c, letter, steps, pos, current, r)
    decreases |c.replies|
  {
    if PyMod(current, steps) == pos then
      Ok((current, c))
    else
      var rd := ReadLine(Write(c, letter));
      match ParsePosition(rd.line)
      case Err(e) =>
        PollStopsFromReads(c, letter, steps, pos, current, Err(e));
        Err(e)
      case Ok(p) =>
        var r := Poll(rd.conn, letter, steps, pos, p);
        PollStep(c, letter, steps, pos, current, p, r);
        PollStepStops(c, letter, steps, pos, p, r);
        PollStopsFromReads(c, letter, steps, pos, current, r);
        r
  }

  /** One more query in front of the rest of the loop. */
  lemma PollStep(c: Conn, letter: string, steps: int, pos: int, current: int, p: int, r: Result<(int, Conn)>)
    requires steps != 0 && PyMod(current, steps) != pos
    requires |c.replies| > 0 && ParsePosition(c.replies[0]) == Ok(p)
    requires PollOutcome(Conn(c.replies[1..], c.written + [letter]), letter, steps, pos, p, r)
    ensures PollOutcome(c, letter, steps, pos, current, r)
  {
    if r.Ok? {
      var rest := c.replies[1..];
      var k := |rest| - |r.value.1.replies|;
      assert r.value.1.written == c.written + [letter] + Repeat(letter, k);
      RepeatCons(letter, k);
      assert rest[k..] == c.replies[|c.replies| - |r.value.1.replies|..];
      PollStepReplies(c.replies, k, steps, pos, p, r.value.0);
    }
  }

  /** Where the loop stops, seen one query earlier. */
  lemma PollStepStops(c: Conn, letter: string, steps: int, pos: int, p: int, r: Result<(int, Conn)>)
    requires steps != 0
    requires |c.replies| > 0 && ParsePosition(c.replies[0]) == Ok(p)
    requires PyMod(p, steps) == pos ==> r == Ok((p, Conn(c.replies[1..], c.written + [letter])))
    requires PyMod(p, steps) != pos ==>
               match ConvergedAt(c.replies[1..], steps, pos)
               case None => r == Err(NoPositionToken(StuckOn(c.replies[1..], steps, pos)))
               case Some((k, f)) => r == Ok((f, Conn(c.replies[1..][k..], c.written + [letter] + Repeat(letter, k))))
    ensures match ConvergedAt(c.replies, steps, pos)
            case None => r == Err(NoPositionToken(StuckOn(c.replies, steps, pos)))
            case Some((k, f)) => r == Ok((f, Conn(c.replies[k..], c.written + Repeat(letter, k))))
  {
    var rest := c.replies[1..];
    if PyMod(p, steps) == pos {
      assert Repeat(letter, 1) == [letter];
    } else if ConvergedAt(rest, steps, pos).Some? {
      var k := ConvergedAt(rest, steps, pos).value.0;
      RepeatCons(letter, k);
      assert c.written + [letter] + Repeat(letter, k) == c.written + Repeat(letter, k + 1);
      assert rest[k..] == c.replies[k + 1..];
    }
  }

  /** How many replies a move_motor call reads before it returns: the
      position before moving, the acknowledgement of the move command, then
      the polling readings up to the first congruent one. None when the call
      raises instead. */
  function MoveSpan(replies: seq<string>, steps: int, pos: int): (r: Option<nat>)
    requires steps != 0
    ensures r.Some? ==> 1 <= r.value <= |replies|
  {
    if |replies| == 0 then None
    else match ParsePosition(replies[0])
      case Err(_) => None
      case Ok(start) =>
        if PyMod(start, steps) == pos then Some(if |replies| >= 2 then 2 else 1)
        else if |replies| < 2 then None
        else match ConvergedAt(replies[2..], steps, pos)
          case None => None
          case Some((k, _)) => Some(k + 2)
  }

  /** The reply a move_motor call raises IndexError on when MoveSpan says it
      does not return: the position before moving, or the polling reading
      StuckOn names among the replies after the acknowledgement. */
  function MoveStuck(replies: seq<string>, steps: int, pos: int): (reply: string)
    requires steps != 0
    ensures MoveSpan(replies, steps, pos).None? ==> ParsePosition(reply).Err?
  {
    if |replies| == 0 then ""
    else if ParsePosition(replies[0]).Err? then replies[0]
    else StuckOn(if |replies| >= 2 then replies[2..] else [], steps, pos)
  }

  /** A move to `pos` returns, leaving `rest`: the replies after its span. */
  predicate MoveLeaves(replies: seq<string>, steps: int, pos: int, rest: seq<string>)
    requires steps != 0
  {
    var span := MoveSpan(replies, steps, pos);
    span.Some? && rest == replies[span.value..]
  }

  /** The poll after the acknowledgement returns exactly when MoveSpan says
      the move does, having read that many replies. */
  lemma PolledSpan(c: Conn, letter: string, s: int, pos: int, current: int, afterAck: Conn,
                   r: Result<(int, Conn)>)
    requires s != 0
    requires |c.replies| >= 1 && ParsePosition(c.replies[0]) == Ok(current)
    requires afterAck.replies == if |c.replies| >= 2 then c.replies[2..] else []
    requires PyMod(current, s) == pos ==> r == Ok((current, afterAck))
    requires PollFinds(afterAck, letter, s, pos, current, r)
    ensures r.Ok? <==> MoveSpan(c.replies, s, pos).Some?
    ensures r.Ok? ==> MoveLeaves(c.replies, s, pos, r.value.1.replies)
  {
    if PyMod(current, s) != pos && |c.replies| >= 2 {
      var found := ConvergedAt(c.replies[2..], s, pos);
      assert MoveSpan(c.replies, s, pos) == if found.Some? then Some(found.value.0 + 2) else None;
      if found.Some? {
        assert c.replies[2..][found.value.0..] == c.replies[found.value.0 + 2..];
      }
    } else if PyMod(current, s) == pos && |c.replies| == 1 {
      assert c.replies[1..] == [];
    }
  }

  /** What a completed move read: the position before moving is the first
      reply, the target keeps that revolution and is congruent to `pos`, the
      final reading is congruent to `pos`, and the replies after the
      acknowledgement are exactly the loop's readings. */
  ghost predicate MoveReadings(c: Conn, steps: int, pos: int, m: Moved)
    requires steps != 0
  {
    MoveTargets(c, steps, pos, m) && MoveReplies(c, steps, pos, m)
  }

  ghost predicate MoveTargets(c: Conn, steps: int, pos: int, m: Moved)
    requires steps != 0
  {
    && |c.replies| >= 1 && ParsePosition(c.replies[0]) == Ok(m.start)
    && PyMod(m.final, steps) == pos
    && PyMod(m.next, steps) == PyMod(pos, steps)
    && m.next - PyMod(m.next, steps) == m.start - PyMod(m.start, steps)
  }

  ghost predicate MoveReplies(c: Conn, steps: int, pos: int, m: Moved)
    requires steps != 0
  {
    var used := |c.replies| - |m.conn.replies|;
    && 1 <= used <= |c.replies|
    && m.conn.replies == c.replies[used..]
    && (PyMod(m.start, steps) == pos ==> m.final == m.start)
    && (PyMod(m.start, steps) != pos ==> 3 <= used && PolledReplies(c.replies[2..used], steps, pos, m.final))
  }

  /** What a completed move wrote after `before`: the position query, the
      move command, then only position queries; so the one move sent is
      (motor id, target). */
  ghost predicate MoveWritten(before: seq<string>, motorId: int, letter: string, m: Moved) {
    var w := m.conn.written;
    && |w| >= |before| + 2
    && w[..|before|] == before
    && w[|before|] == letter
    && w[|before| + 1] == MoveCommand(motorId, m.next)
    && (forall i :: |before| + 2 <= i < |w| ==> w[i] == letter)
    && MoveCommands(w[|before|..]) == [(motorId, m.next)]
  }

  /** move_motor with the axis and modulus already looked up. `steps` is the
      modulus or the error looking it up raises; it is first needed after the
      position query, so that is when such an error surfaces. Replies are,
      in order: the position before moving, the move acknowledgement, then
      one per poll. */
  function MoveMotorWith(c: Conn, motorId: int, steps: Result<int>, pos: int): (r: Result<Moved>)
    ensures AxisLetter(motorId).Err? ==> r == Err(AxisIndex(motorId))
    ensures AxisLetter(motorId).Ok? && (|c.replies| == 0 || ParsePosition(c.replies[0]).Err?) ==>
              r.Err? && r.error.NoPositionToken?
    ensures AxisLetter(motorId).Ok? && steps.Ok? && steps.value != 0
            && |c.replies| >= 1 && ParsePosition(c.replies[0]).Ok?
            && PyMod(ParsePosition(c.replies[0]).value, steps.value) != pos
            && (|c.replies| < 3 || ParsePosition(c.replies[2]).Err?) ==>
              r == Err(NoPositionToken(if |c.replies| < 3 then "" else c.replies[2]))
    ensures AxisLetter(motorId).Ok? && |c.replies| >= 1 && ParsePosition(c.replies[0]).Ok? ==>
              && (steps.Err? ==> r == Err(steps.error))
              && (steps == Ok(0) ==> r == Err(ZeroModulus))
    ensures r.Ok? ==> steps.Ok? && steps.value != 0 && AxisLetter(motorId).Ok?
    ensures r.Ok? ==> MoveReadings(c, steps.value, pos, r.value)
    ensures r.Ok? ==> MoveWritten(c.written, motorId, AxisLetter(motorId).value, r.value)
    ensures steps.Ok? && steps.value > 0 && !(0 <= pos < steps.value) ==> r.Err?
  {
    var letter :- AxisLetter(motorId);
    var query := ReadLine(Write(c, letter));
    var current :- ParsePosition(query.line);
    var s :- steps;
    if s == 0 then
      Err(ZeroModulus)
    else
      var next := NextPosition(current, pos, s);
      var ack := ReadLine(Write(query.conn, MoveCommand(motorId, next)));
      match Poll(ack.conn, letter, s, pos, current)
      case Err(e) => Err(e)
      case Ok(polled) =>
        var moved := Moved(current, next, polled.0, polled.1);
        QueryThenCommand(c, letter, MoveCommand(motorId, next));
        MoveWritesAfterPoll(c.written, letter, motorId, s, pos, current, next, ack.conn, polled);
        MoveReadingsHold(c, letter, s, pos, current, next, ack.conn, polled);
        Ok(moved)
  }

  /** With a valid axis and a non-zero modulus, a move returns exactly when
      the replies let it (MoveSpan), having read that many of them, and
      otherwise raises IndexError on the reply MoveStuck names. */
  lemma MoveSucceeds(c: Conn, motorId: int, steps: int, pos: int)
    requires AxisLetter(motorId).Ok? && steps != 0
    ensures var r := MoveMotorWith(c, motorId, Ok(steps), pos);
            && (r.Ok? <==> MoveSpan(c.replies, steps, pos).Some?)
            && (r.Ok? ==> MoveLeaves(c.replies, steps, pos, r.value.conn.replies))
            && (r.Err? ==> r.error == NoPositionToken(MoveStuck(c.replies, steps, pos)))
  {
    var r := MoveMotorWith(c, motorId, Ok(steps), pos);
    var letter := AxisLetter(motorId).value;
    var query := ReadLine(Write(c, letter));
    if ParsePosition(query.line).Ok? {
      var current := ParsePosition(query.line).value;
      var next := NextPosition(current, pos, steps);
      var ack := ReadLine(Write(query.conn, MoveCommand(motorId, next)));
      var polled := Poll(ack.conn, letter, steps, pos, current);
      assert r.Ok? <==> polled.Ok?;
      assert r.Ok? ==> r.value.conn == polled.value.1;
      QueryThenCommand(c, letter, MoveCommand(motorId, next));
      PolledSpan(c, letter, steps, pos, current, ack.conn, polled);
      SpanOfMove(c.replies, steps, pos, polled, r);
    } else {
      assert r.Err? && MoveSpan(c.replies, steps, pos).None?;
    }
  }

  lemma SpanOfMove(replies: seq<string>, steps: int, pos: int, polled: Result<(int, Conn)>, r: Result<Moved>)
    requires steps != 0
    requires r.Ok? <==> polled.Ok?
    requires r.Ok? ==> r.value.conn == polled.value.1
    requires polled.Ok? <==> MoveSpan(replies, steps, pos).Some?
    requires polled.Ok? ==> MoveLeaves(replies, steps, pos, polled.value.1.replies)
    ensures r.Ok? <==> MoveSpan(replies, steps, pos).Some?
    ensures r.Ok? ==> MoveLeaves(replies, steps, pos, r.value.conn.replies)
  {
  }

  lemma MoveReadingsHold(c: Conn, letter: string, s: int, pos: int, current: int, next: int,
                          afterAck: Conn, polled: (int, Conn))
    requires s != 0
    requires |c.replies| >= 1 && ParsePosition(c.replies[0]) == Ok(current)
    requires next == NextPosition(current, pos, s)
    requires afterAck.replies == if |c.replies| >= 2 then c.replies[2..] else []
    requires PollSpec(afterAck, letter, s, pos, current, Ok(polled))
    ensures MoveReadings(c, s, pos, Moved(current, next, polled.0, polled.1))
  {
    assert MoveTargets(c, s, pos, Moved(current, next, polled.0, polled.1));
    MoveRepliesHold(c, afterAck.replies, s, pos, current, next, polled);
  }

  lemma MoveRepliesHold(c: Conn, afterAck: seq<string>, s: int, pos: int, current: int, next: int,
                        polled: (int, Conn))
    requires s != 0 && |c.replies| >= 1
    requires afterAck == if |c.replies| >= 2 then c.replies[2..] else []
    requires var k := |afterAck| - |polled.1.replies|;
             && 0 <= k
             && polled.1.replies == afterAck[k..]
             && (PyMod(current, s) == pos ==> polled == (current, polled.1) && k == 0)
             && (PyMod(current, s) != pos ==> PolledReplies(afterAck[..k], s, pos, polled.0))
    ensures MoveReplies(c, s, pos, Moved(current, next, polled.0, polled.1))
  {
    PolledAfterAck(c.replies, afterAck, polled.1.replies, s, pos, current, polled.0);
  }

  /** The poll's replies, seen from the start of the move: they follow the
      position reply and the acknowledgement. */
  lemma PolledAfterAck(replies: seq<string>, afterAck: seq<string>, afterPoll: seq<string>,
                       steps: int, pos: int, current: int, final: int)
    requires steps != 0 && |replies| >= 1
    requires afterAck == if |replies| >= 2 then replies[2..] else []
    requires |afterPoll| <= |afterAck| && afterPoll == afterAck[|afterAck| - |afterPoll|..]
    requires PyMod(current, steps) == pos ==> afterPoll == afterAck
    requires PyMod(current, steps) != pos ==>
               PolledReplies(afterAck[..|afterAck| - |afterPoll|], steps, pos, final)
    ensures var used := |replies| - |afterPoll|;
            && 1 <= used <= |replies|
            && afterPoll == replies[used..]
            && (PyMod(current, steps) != pos ==> 3 <= used && PolledReplies(replies[2..used], steps, pos, final))
  {
    var used := |replies| - |afterPoll|;
    if PyMod(current, steps) != pos {
      assert |afterAck| - |afterPoll| > 0;
      assert replies[2..used] == afterAck[..|afterAck| - |afterPoll|];
    }
  }

  /** A query, one move command, then only queries: the one move sent. */
  lemma MovePhaseCommands(letter: string, motorId: int, next: int, tail: seq<string>)
    requires |letter| <= 1
    requires forall i :: 0 <= i < |tail| ==> tail[i] == letter
    ensures MoveCommands([letter, MoveCommand(motorId, next)] + tail) == [(motorId, next)]
  {
    var command := MoveCommand(motorId, next);
    MoveCommandsAppend([letter, command], tail);
    ShortWritesNoMoves(tail);
    QueryThenMove(letter, command, (motorId, next));
  }

  lemma QueryThenMove(letter: string, command: string, move: (int, int))
    requires |letter| <= 1
    requires ParseMoveCommand(command) == Some(move)
    ensures MoveCommands([letter, command]) == [move]
  {
    assert [letter, command][..1] == [letter];
    ShortWritesNoMoves([letter]);
  }

  /** Written after `before`: a query, the move command, then only queries. */
  lemma MoveWrites(before: seq<string>, letter: string, motorId: int, m: Moved, tail: seq<string>)
    requires |letter| <= 1
    requires forall i :: 0 <= i < |tail| ==> tail[i] == letter
    requires m.conn.written == before + [letter, MoveCommand(motorId, m.next)] + tail
    ensures MoveWritten(before, motorId, letter, m)
  {
    PhaseShape(before, letter, MoveCommand(motorId, m.next), tail, m.conn.written);
    MovePhaseCommands(letter, motorId, m.next, tail);
  }

  lemma PhaseShape(before: seq<string>, letter: string, command: string, tail: seq<string>, w: seq<string>)
    requires forall i :: 0 <= i < |tail| ==> tail[i] == letter
    requires w == before + [letter, command] + tail
    ensures |w| >= |before| + 2 && w[..|before|] == before
    ensures w[|before|] == letter && w[|before| + 1] == command
    ensures forall i :: |before| + 2 <= i < |w| ==> w[i] == letter
    ensures w[|before|..] == [letter, command] + tail
  {
    forall i | |before| + 2 <= i < |w|
      ensures w[i] == letter
    {
      assert w[i] == tail[i - |before| - 2];
    }
  }

  /** The writes of a move whose poll succeeded. */
  lemma MoveWritesAfterPoll(before: seq<string>, letter: string, motorId: int, s: int, pos: int, current: int,
                            next: int, afterAck: Conn, polled: (int, Conn))
    requires s != 0 && |letter| <= 1
    requires afterAck.written == before + [letter, MoveCommand(motorId, next)]
    requires PollSpec(afterAck, letter, s, pos, current, Ok(polled))
    ensures MoveWritten(before, motorId, letter, Moved(current, next, polled.0, polled.1))
  {
    var tail := Repeat(letter, |afterAck.replies| - |polled.1.replies|);
    assert polled.1.written == afterAck.written + tail;
    MoveWrites(before, letter, motorId, Moved(current, next, polled.0, polled.1), tail);
  }

  // ---------------------------------------------------------------------------
  // Runs of moves

  /** One move_motor call from link `before` to motor `id` and position
      `pos`: a valid axis, the readings of MoveReadings and the writes of
      MoveWritten. */
  ghost predicate MoveMade(before: Conn, steps: int, id: int, pos: int, m: Moved)
    requires steps != 0
  {
    && AxisLetter(id).Ok?
    && MoveReadings(before, steps, pos, m)
    && MoveWritten(before.written, id, AxisLetter(id).value, m)
  }

  /** The link before move i of a run of moves that started on `c`;
      LinkAt(c, ms, |ms|) is the link after the whole run. */
  function LinkAt(c: Conn, ms: seq<Moved>, i: nat): Conn
    requires i <= |ms|
  {
    if i == 0 then c else ms[i - 1].conn
  }

  /** A run of steps: step i goes from the link the step before it left
      (the first from `c`) and satisfies `made`. */
  ghost predicate Chain(c: Conn, made: (Conn, int, int, Moved) -> bool, ids: seq<int>, targets: seq<int>,
                        ms: seq<Moved>)
    decreases |ms|
  {
    && |ms| == |ids| == |targets|
    && (|ms| > 0 ==>
          && made(c, ids[0], targets[0], ms[0])
          && Chain(ms[0].conn, made, ids[1..], targets[1..], ms[1..]))
  }

  /** `ms` are the moves of move_motor calls to motors ids[i] and positions
      targets[i], in turn: the first starts on `c`, and each later one on
      the link the one before it left. */
  ghost predicate MovesMade(c: Conn, steps: int, ids: seq<int>, targets: seq<int>, ms: seq<Moved>) {
    Chain(c, MadeBy(steps), ids, targets, ms)
  }

  ghost function MadeBy(steps: int): (Conn, int, int, Moved) -> bool {
    (b, id, pos, m) => steps != 0 && MoveMade(b, steps, id, pos, m)
  }

  lemma ChainCons(c: Conn, made: (Conn, int, int, Moved) -> bool, id: int, pos: int, m: Moved,
                  ids: seq<int>, targets: seq<int>, ms: seq<Moved>)
    requires made(c, id, pos, m)
    requires Chain(m.conn, made, ids, targets, ms)
    ensures Chain(c, made, [id] + ids, [pos] + targets, [m] + ms)
  {
    assert ([id] + ids)[1..] == ids && ([pos] + targets)[1..] == targets && ([m] + ms)[1..] == ms;
  }

  lemma {:induction false} ChainSnoc(c: Conn, made: (Conn, int, int, Moved) -> bool,
                                     ids: seq<int>, targets: seq<int>, ms: seq<Moved>, id: int, pos: int, m: Moved)
    requires Chain(c, made, ids, targets, ms)
    requires made(LinkAt(c, ms, |ms|), id, pos, m)
    ensures Chain(c, made, ids + [id], targets + [pos], ms + [m])
    decreases |ms|
  {
    if |ms| == 0 {
      ChainCons(c, made, id, pos, m, [], [], []);
      assert ids + [id] == [id] + [] && targets + [pos] == [pos] + [] && ms + [m] == [m] + [];
    } else {
      assert LinkAt(c, ms, |ms|) == LinkAt(ms[0].conn, ms[1..], |ms| - 1);
      ChainSnoc(ms[0].conn, made, ids[1..], targets[1..], ms[1..], id, pos, m);
      ChainCons(c, made, ids[0], targets[0], ms[0], ids[1..] + [id], targets[1..] + [pos], ms[1..] + [m]);
      assert [ids[0]] + (ids[1..] + [id]) == ids + [id];
      assert [targets[0]] + (targets[1..] + [pos]) == targets + [pos];
      assert [ms[0]] + (ms[1..] + [m]) == ms + [m];
    }
  }

  /** A move in front of a run of moves that starts where it left the link. */
  lemma MovesMadeCons(c: Conn, steps: int, id: int, pos: int, m: Moved,
                      ids: seq<int>, targets: seq<int>, ms: seq<Moved>)
    requires steps != 0
    requires MoveMade(c, steps, id, pos, m)
    requires MovesMade(m.conn, steps, ids, targets, ms)
    ensures MovesMade(c, steps, [id] + ids, [pos] + targets, [m] + ms)
    ensures LinkAt(c, [m] + ms, |ms| + 1) == LinkAt(m.conn, ms, |ms|)
  {
    assert MadeBy(steps)(c, id, pos, m);
    ChainCons(c, MadeBy(steps), id, pos, m, ids, targets, ms);
  }

  /** A move after a run of moves, starting where the run left the link. */
  lemma MovesMadeSnoc(c: Conn, steps: int, ids: seq<int>, targets: seq<int>, ms: seq<Moved>,
                      id: int, pos: int, m: Moved)
    requires steps != 0
    requires MovesMade(c, steps, ids, targets, ms)
    requires MoveMade(LinkAt(c, ms, |ms|), steps, id, pos, m)
    ensures MovesMade(c, steps, ids + [id], targets + [pos], ms + [m])
    ensures LinkAt(c, ms + [m], |ms| + 1) == m.conn
  {
    assert MadeBy(steps)(LinkAt(c, ms, |ms|), id, pos, m);
    ChainSnoc(c, MadeBy(steps), ids, targets, ms, id, pos, m);
  }

  lemma NoMovesMade(c: Conn, steps: int)
    ensures MovesMade(c, steps, [], [], []) && LinkAt(c, [], 0) == c
  {
  }

  /** The replies left after move_motor calls to `targets`, in turn, each
      returning; None when one of them raises. */
  function MovesLeave(replies: seq<string>, steps: int, targets: seq<int>): (r: Option<seq<string>>)
    requires steps != 0
    decreases |targets|
  {
    if |targets| == 0 then Some(replies)
    else match MoveSpan(replies, steps, targets[0])
      case None => None
      case Some(n) => MovesLeave(replies[n..], steps, targets[1..])
  }

  /** A move that leaves `rest`, followed by a run of moves: the run reads
      from `rest`. */
  lemma LeaveCons(replies: seq<string>, rest: seq<string>, steps: int, pos: int, later: seq<int>)
    requires steps != 0
    requires MoveLeaves(replies, steps, pos, rest)
    ensures MovesLeave(replies, steps, [pos] + later) == MovesLeave(rest, steps, later)
  {
    var targets := [pos] + later;
    assert targets[0] == pos && targets[1..] == later;
  }

  /** One more move after a run: it reads from what the run left. */
  lemma MovesLeaveSnoc(replies: seq<string>, steps: int, init: seq<int>, last: int)
    requires steps != 0
    ensures MovesLeave(replies, steps, init + [last])
            == match MovesLeave(replies, steps, init)
               case None => None
               case Some(middle) =>
                 match MoveSpan(middle, steps, last)
                 case None => None
                 case Some(n) => Some(middle[n..])
  {
    MovesLeaveAppend(replies, steps, init, [last]);
    var a := MovesLeave(replies, steps, init);
    if a.Some? {
      assert [last][0] == last && [last][1..] == [];
      var span := MoveSpan(a.value, steps, last);
      if span.Some? {
        assert MovesLeave(a.value[span.value..], steps, []) == Some(a.value[span.value..]);
      }
    }
  }

  /** Two runs of moves in a row leave what the second leaves after the first. */
  lemma {:induction false} MovesLeaveAppend(replies: seq<string>, steps: int, a: seq<int>, b: seq<int>)
    requires steps != 0
    ensures MovesLeave(replies, steps, a + b)
            == match MovesLeave(replies, steps, a)
               case None => None
               case Some(rest) => MovesLeave(rest, steps, b)
    decreases |a|
  {
    if |a| == 0 {
      assert a + b == b;
    } else {
      assert (a + b)[0] == a[0] && (a + b)[1..] == a[1..] + b;
      match MoveSpan(replies, steps, a[0])
      case None =>
      case Some(n) => MovesLeaveAppend(replies[n..], steps, a[1..], b);
    }
  }

  /** Against a controller that is already at the commanded position when it
      is next asked, the move finishes after one poll. */
  lemma PollInstant(c: Conn, letter: string, steps: int, pos: int, current: int, reached: int)
    requires steps != 0 && PyMod(current, steps) != pos
    requires |c.replies| >= 1 && ParsePosition(c.replies[0]) == Ok(reached)
    requires PyMod(reached, steps) == pos
    ensures Poll(c, letter, steps, pos, current) == Ok((reached, Conn(c.replies[1..], c.written + [letter])))
  {
  }
}

=== FILE: pyarith.dfy ===
/** Python's integer `//` and `%`: the quotient is rounded toward minus
    infinity, so the remainder takes the sign of the divisor. With a positive
    divisor this is Dafny's Euclidean `/` and `%`. */
module PyArith {

  function Abs(x: int): nat {
    if x < 0 then -x else x
  }

  /** The range Python's `a % b` lands in: [0, b) for b > 0, (b, 0] for b < 0. */
  predicate InModRange(m: int, b: int) {
    if b > 0 then 0 <= m < b else b < m <= 0
  }

  /** Python's a // b. */
  function FloorDiv(a: int, b: int): int
    requires b != 0
  {
    if b > 0 then a / b else (-a) / (-b)
  }

  /** Python's a % b. */
  function PyMod(a: int, b: int): (r: int)
    requires b != 0
    ensures a == b * FloorDiv(a, b) + r
    ensures InModRange(r, b)
  {
    if b > 0 then a % b else -((-a) % (-b))
  }

  lemma EuclidUnique(a: int, b: int, q: int, m: int)
    requires b > 0 && 0 <= m < b && a == b * q + m
    ensures a / b == q && a % b == m
  {
    var q', m' := a / b, a % b;
    assert b * (q - q') == m' - m by {
      assert b * q + m == b * q' + m';
    }
    if q > q' {
      MulAtLeast(b, q - q');
      assert false;
    } else if q < q' {
      MulAtLeast(b, q' - q);
      assert false;
    }
  }

  lemma MulAtLeast(b: int, k: int)
    requires b > 0 && k >= 1
    ensures b * k >= b
  {
  }

  /** A decomposition a == b * q + m with m in Python's remainder range is the
      one Python computes. */
  lemma FloorDivUnique(a: int, b: int, q: int, m: int)
    requires b != 0 && InModRange(m, b) && a == b * q + m
    ensures FloorDiv(a, b) == q && PyMod(a, b) == m
  {
    if b > 0 {
      EuclidUnique(a, b, q, m);
    } else {
      assert -a == (-b) * q + -m;
      EuclidUnique(-a, -b, q, -m);
    }
  }
}

=== FILE: results.dfy ===
/** Failure-carrying results for the modelled Python code: every exception the
    code can raise on its own becomes an `Error` value instead. */
module Results {

  datatype Option<+T> = None | Some(value: T)

  /** One constructor per way the modelled code aborts. */
  datatype Error =
    | AxisIndex(motorId: int)           // IndexError: POS_CHECK[motor_id] outside the list
    | NoPositionToken(reply: string)    // IndexError: no [+-]\d+ token in a position reply
    | ZeroModulus                       // ZeroDivisionError: x % 0
    | MissingKey(key: string)           // KeyError on the configuration dictionary
    | NotAnInt(key: string)             // TypeError: a text value used as an index or modulus
    | NoSeparator(line: string)         // IndexError: var[1] of a line without the separator
    | BadInt(text: string)              // ValueError raised by int()
    | OutOfRange(key: string)           // ValueError raised by a configuration bound check
    | InstrumentSilent                  // the instrument gave no reply to a query
    | RowShape(expected: nat, got: nat) // numpy cannot store a trace of this length as a row
    | NotConnected                      // the instrument reports "Not connected"
    | MotorNotReady                     // the readiness probe failed

  datatype Result<+T> = Ok(value: T) | Err(error: Error) {

    predicate IsFailure() {
      Err?
    }

    function PropagateFailure<U>(): Result<U>
      requires Err?
    {
      Err(error)
    }

    function Extract(): T
      requires Ok?
    {
      value
    }
  }
}

=== FILE: serial_link.dfy ===
/** The host's view of the serial line to the motor controller: the lines the
    controller will answer with, in order, and every string written so far. */
module SerialLink {

  datatype Conn = Conn(replies: seq<string>, written: seq<string>)

  datatype Read = Read(line: string, conn: Conn)

  /** conn.write(s) */
  function Write(c: Conn, s: string): Conn {
    c.(written := c.written + [s])
  }

  /** conn.readline(): the next scripted reply; once the script is used up
      the read times out and yields the empty string, as pyserial does. */
  function ReadLine(c: Conn): (r: Read)
    ensures r.conn.written == c.written
    ensures |c.replies| > 0 ==> c.replies == [r.line] + r.conn.replies
    ensures |c.replies| == 0 ==> r.line == "" && r.conn == c
  {
    if |c.replies| == 0 then Read("", c) else Read(c.replies[0], c.(replies := c.replies[1..]))
  }

  /** A query followed by a command, each answered by one line: what is left
      of the script and what has been written. */
  lemma QueryThenCommand(c: Conn, query: string, command: string)
    ensures var after := ReadLine(Write(ReadLine(Write(c, query)).conn, command)).conn;
            && after.replies == (if |c.replies| >= 2 then c.replies[2..] else [])
            && after.written == c.written + [query, command]
  {
  }

  /** n copies of x. */
  function Repeat<T>(x: T, n: nat): (r: seq<T>)
    ensures |r| == n && forall i :: 0 <= i < n ==> r[i] == x
  {
    seq(n, _ => x)
  }

  lemma RepeatSnoc<T>(x: T, n: nat)
    ensures Repeat(x, n) + [x] == Repeat(x, n + 1)
  {
    var r := Repeat(x, n) + [x];
    assert forall i :: 0 <= i < n + 1 ==> r[i] == x;
  }

  lemma RepeatCons<T>(x: T, n: nat)
    ensures [x] + Repeat(x, n) == Repeat(x, n + 1)
  {
    var r := [x] + Repeat(x, n);
    assert forall i :: 0 <= i < n + 1 ==> r[i] == x;
  }
}

=== FILE: text.dfy ===
/** Text helpers with Python's meaning: str() of an int (used by every
    f-string in the modelled code), int() of a string, str.find and str.split
    on one character. */
module Text {
  import opened Results

  predicate IsDigit(c: char) {
    '0' <= c <= '9'
  }

  predicate AllDigits(s: string) {
    forall i :: 0 <= i < |s| ==> IsDigit(s[i])
  }

  function DigitValue(c: char): (d: nat)
    requires IsDigit(c)
    ensures d < 10
  {
    c as int - '0' as int
  }

  function DigitChar(d: nat): (c: char)
    requires d < 10
    ensures IsDigit(c) && DigitValue(c) == d
  {
    "0123456789"[d]
  }

  /** The value of a string of decimal digits, most significant first. */
  function DigitsValue(s: string): nat
    requires AllDigits(s)
  {
    if |s| == 0 then 0 else 10 * DigitsValue(s[..|s| - 1]) + DigitValue(s[|s| - 1])
  }

  /** Python's str(n) for n >= 0: digits without leading zeros. */
  function NatText(n: nat): (s: string)
    ensures 1 <= |s| && AllDigits(s)
    ensures s[0] == '0' ==> n == 0
  {
    if n < 10 then [DigitChar(n)] else NatText(n / 10) + [DigitChar(n % 10)]
  }

  /** Python's str(n) for any int: a minus sign for a negative number, then
      its digits without leading zeros. (CPython 3.11 and later refuse the
      conversion past 4300 digits by default; that limit is not modelled.) */
  function IntText(n: int): (s: string)
    ensures 1 <= |s|
    ensures n < 0 <==> s[0] == '-'
    ensures n >= 0 ==> AllDigits(s)
    ensures n < 0 ==> |s| >= 2 && AllDigits(s[1..]) && s[1] != '0'
    ensures s[0] == '0' ==> s == "0"
  {
    if n < 0 then "-" + NatText(-n) else NatText(n)
  }

  /** A signed decimal literal `[+-]?[0-9]+`. */
  function ParseInt(s: string): Option<int> {
    if |s| > 0 && (s[0] == '+' || s[0] == '-') then
      match ParseDigits(s[1..])
      case Some(v) =>
        var m: int := v;
        Some(if s[0] == '-' then -m else m)
      case None => None
    else ParseDigits(s)
  }

  /** A non-empty run of decimal digits `[0-9]+`. */
  function ParseDigits(s: string): Option<nat> {
    if |s| > 0 && AllDigits(s) then Some(DigitsValue(s)) else None
  }

  lemma {:induction false} NatTextValue(n: nat)
    ensures DigitsValue(NatText(n)) == n
  {
    if n >= 10 {
      NatTextValue(n / 10);
      var s := NatText(n);
      assert s[..|s| - 1] == NatText(n / 10);
    }
  }

  /** Reading back what str() printed gives the number again. */
  lemma IntTextRoundTrip(n: int)
    ensures ParseInt(IntText(n)) == Some(n)
  {
    if n < 0 {
      assert IntText(n) == "-" + NatText(-n);
      NegativeRoundTrip(-n);
    } else {
      UnsignedRoundTrip(n);
    }
  }

  lemma NegativeRoundTrip(m: nat)
    ensures ParseInt("-" + NatText(m)) == Some(-(m as int))
  {
    var t := NatText(m);
    ParseNegative(t);
    NatTextValue(m);
  }

  lemma UnsignedRoundTrip(n: nat)
    ensures ParseInt(IntText(n)) == Some(n)
  {
    var t := NatText(n);
    assert IntText(n) == t;
    ParseUnsigned(t);
    NatTextValue(n);
  }

  lemma ParseNegative(t: string)
    requires 1 <= |t| && AllDigits(t)
    ensures ParseInt("-" + t) == Some(-(DigitsValue(t) as int))
  {
    var s := "-" + t;
    assert s[1..] == t;
  }

  lemma ParseUnsigned(t: string)
    requires 1 <= |t| && AllDigits(t)
    ensures ParseInt(t) == Some(DigitsValue(t))
  {
    assert IsDigit(t[0]);
  }

  /** The characters Python's int() skips around a literal (ASCII only). */
  predicate IsSpace(c: char) {
    c == ' ' || c == '\t' || c == '\n' || c == '\r' || c == '\U{000B}' || c == '\U{000C}'
  }

  predicate AllSpace(s: string) {
    forall i :: 0 <= i < |s| ==> IsSpace(s[i])
  }

  function TrimStart(s: string): (r: string)
    ensures |r| <= |s| && r == s[|s| - |r|..]
    ensures AllSpace(s[..|s| - |r|])
    ensures |r| > 0 ==> !IsSpace(r[0])
  {
    if |s| > 0 && IsSpace(s[0]) then TrimStart(s[1..]) else s
  }

  function TrimEnd(s: string): (r: string)
    ensures |r| <= |s| && r == s[..|r|]
    ensures AllSpace(s[|r|..])
    ensures |r| > 0 ==> !IsSpace(r[|r| - 1])
  {
    if |s| > 0 && IsSpace(s[|s| - 1]) then TrimEnd(s[..|s| - 1]) else s
  }

  predicate IsSign(c: char) {
    c == '+' || c == '-'
  }

  /** The value of a sign followed by digits. */
  function SignedValue(sign: char, d: string): int
    requires AllDigits(d)
  {
    var m: int := DigitsValue(d);
    if sign == '-' then -m else m
  }

  /** A decimal integer literal: an optional sign, then at least one digit. */
  predicate IsLiteral(t: string) {
    && |t| >= 1
    && if IsSign(t[0]) then |t| >= 2 && AllDigits(t[1..]) else AllDigits(t)
  }

  function LiteralValue(t: string): int
    requires IsLiteral(t)
  {
    if IsSign(t[0]) then SignedValue(t[0], t[1..]) else DigitsValue(t)
  }

  /** s[i..j] is a literal with only white space before and after it. */
  predicate PaddedLiteral(s: string, i: int, j: int) {
    && 0 <= i <= j <= |s|
    && AllSpace(s[..i]) && AllSpace(s[j..])
    && IsLiteral(s[i..j])
  }

  /** Python's int(text): surrounding white space is skipped, the rest must be a
      signed decimal literal, anything else raises ValueError. */
  function PyInt(s: string): (r: Result<int>)
    ensures r.Ok? <==> exists i, j :: PaddedLiteral(s, i, j)
    ensures r.Ok? ==> forall i, j :: PaddedLiteral(s, i, j) ==> r.value == LiteralValue(s[i..j])
    ensures r.Err? ==> r.error == BadInt(s)
  {
    TrimmedLiteral(s);
    match ParseInt(TrimEnd(TrimStart(s)))
    case Some(n) => Ok(n)
    case None => Err(BadInt(s))
  }

  lemma ParseIntLiteral(t: string)
    ensures ParseInt(t).Some? <==> IsLiteral(t)
    ensures IsLiteral(t) ==> ParseInt(t) == Some(LiteralValue(t))
  {
  }

  /** Trimming finds the literal exactly when there is one between white
      space, and then finds that one. */
  lemma TrimmedLiteral(s: string)
    ensures ParseInt(TrimEnd(TrimStart(s))).Some? <==> exists i, j :: PaddedLiteral(s, i, j)
    ensures forall i, j :: PaddedLiteral(s, i, j) ==> ParseInt(TrimEnd(TrimStart(s))) == Some(LiteralValue(s[i..j]))
  {
    var t := TrimEnd(TrimStart(s));
    ParseIntLiteral(t);
    if IsLiteral(t) {
      var i, j := TrimmedIsPadded(s);
    }
    forall i, j | PaddedLiteral(s, i, j)
      ensures ParseInt(t) == Some(LiteralValue(s[i..j]))
    {
      PaddedFound(s, i, j);
      ParseIntLiteral(s[i..j]);
    }
  }

  /** What trimming leaves sits between white space. */
  lemma TrimmedIsPadded(s: string) returns (i: int, j: int)
    requires IsLiteral(TrimEnd(TrimStart(s)))
    ensures PaddedLiteral(s, i, j)
  {
    var a := TrimStart(s);
    var t := TrimEnd(a);
    i := |s| - |a|;
    j := i + |t|;
    assert s[i..j] == t;
    assert s[j..] == a[|t|..];
  }

  /** Trimming a padded literal leaves the literal. */
  lemma PaddedFound(s: string, i: int, j: int)
    requires PaddedLiteral(s, i, j)
    ensures TrimEnd(TrimStart(s)) == s[i..j]
  {
    var t := s[i..j];
    assert !IsSpace(t[0]) by { if !IsSign(t[0]) { assert IsDigit(t[0]); } }
    assert !IsSpace(t[|t| - 1]) by {
      if IsSign(t[0]) { assert t[1..][|t| - 2] == t[|t| - 1]; } else { assert IsDigit(t[|t| - 1]); }
    }
    assert s == s[..i] + (t + s[j..]);
    TrimStartSkips(s[..i], t + s[j..]);
    TrimEndSkips(t, s[j..]);
  }

  lemma {:induction false} TrimStartSkips(pre: string, t: string)
    requires AllSpace(pre)
    requires |t| > 0 && !IsSpace(t[0])
    ensures TrimStart(pre + t) == t
  {
    if |pre| > 0 {
      assert (pre + t)[1..] == pre[1..] + t;
      TrimStartSkips(pre[1..], t);
    } else {
      assert pre + t == t;
    }
  }

  lemma {:induction false} TrimEndSkips(t: string, post: string)
    requires AllSpace(post)
    requires |t| > 0 && !IsSpace(t[|t| - 1])
    ensures TrimEnd(t + post) == t
  {
    if |post| > 0 {
      assert (t + post)[..|t + post| - 1] == t + post[..|post| - 1];
      TrimEndSkips(t, post[..|post| - 1]);
    } else {
      assert t + post == t;
    }
  }

  /** int() reads back str(n) even with white space (such as the line's
      newline) around it. */
  lemma PyIntPadded(pre: string, n: int, post: string)
    requires AllSpace(pre) && AllSpace(post)
    ensures PyInt(pre + IntText(n) + post) == Ok(n)
  {
    var t := IntText(n);
    assert !IsSpace(t[|t| - 1]) by {
      if n >= 0 { assert IsDigit(t[|t| - 1]); } else { assert t[1..][|t| - 2] == t[|t| - 1]; }
    }
    assert pre + t + post == pre + (t + post);
    TrimStartSkips(pre, t + post);
    TrimEndSkips(t, post);
    IntTextRoundTrip(n);
  }

  /** Index of the first c in s, or |s| (str.find, with |s| for "absent"). */
  function IndexOf(s: string, c: char): (i: nat)
    ensures i <= |s|
    ensures i < |s| ==> s[i] == c
    ensures forall j :: 0 <= j < i ==> s[j] != c
  {
    if |s| == 0 then 0 else if s[0] == c then 0 else 1 + IndexOf(s[1..], c)
  }

  /** s.split(sep) for a one-character separator. */
  function Split(s: string, sep: char): (parts: seq<string>)
    ensures |parts| >= 1
    ensures |parts| == 1 <==> sep !in s
    ensures forall i :: 0 <= i < |parts| ==> sep !in parts[i]
    decreases |s|
  {
    var i := IndexOf(s, sep);
    if i == |s| then [s] else [s[..i]] + Split(s[i + 1..], sep)
  }

  /** sep.join(parts) */
  function Join(parts: seq<string>, sep: char): string
    requires |parts| >= 1
  {
    if |parts| == 1 then parts[0] else parts[0] + [sep] + Join(parts[1..], sep)
  }

  /** Splitting loses nothing: joining the pieces gives the text back. */
  lemma {:induction false} JoinSplit(s: string, sep: char)
    ensures Join(Split(s, sep), sep) == s
    decreases |s|
  {
    var i := IndexOf(s, sep);
    if i < |s| {
      JoinSplit(s[i + 1..], sep);
      SplitJoinStep(s, sep, i, Split(s[i + 1..], sep));
      Reassemble(s, sep, i, Join(Split(s, sep), sep), Join(Split(s[i + 1..], sep), sep));
    }
  }

  lemma Reassemble(s: string, sep: char, i: nat, whole: string, tail: string)
    requires i < |s| && s[i] == sep
    requires whole == s[..i] + [sep] + tail && tail == s[i + 1..]
    ensures whole == s
  {
    assert s == s[..i] + [sep] + s[i + 1..];
  }

  /** One unfolding of Split followed by Join. */
  lemma SplitJoinStep(s: string, sep: char, i: nat, tail: seq<string>)
    requires i == IndexOf(s, sep) && i < |s|
    requires tail == Split(s[i + 1..], sep)
    ensures Join(Split(s, sep), sep) == s[..i] + [sep] + Join(tail, sep)
  {
    var parts := Split(s, sep);
    assert parts == [s[..i]] + tail;
    assert parts[0] == s[..i] && parts[1..] == tail;
  }

  /** The first piece is everything before the first separator and the
      second runs up to the next one. */
  lemma SplitFields(key: string, sep: char, rest: string)
    requires sep !in key
    ensures Split(key + [sep] + rest, sep)[0] == key
    ensures Split(key + [sep] + rest, sep)[1] == rest[..IndexOf(rest, sep)]
  {
    var s := key + [sep] + rest;
    assert forall j :: 0 <= j < |key| ==> s[j] == key[j];
    assert IndexOf(s, sep) == |key| by {
      assert s[|key|] == sep;
    }
    assert s[..|key|] == key;
    assert s[|key| + 1..] == rest;
  }
}

=== FILE: vna_link.dfy ===
/** The host's view of the instrument's text control channel and the
    acquisition sequence both scripts share after their setup commands:
    trigger, wait for the sweep, fetch the S21 trace, keep its values. */
module VnaLink {
  import opened Results
  import opened Text
  import opened SerialLink

  datatype Msg = Cmd(text: string) | Query(text: string)

  /** The answers the instrument will give to queries, in order, and every
      message sent so far. */
  datatype Vna = Vna(replies: seq<string>, sent: seq<Msg>)

  datatype Answer = Answer(text: string, vna: Vna)

  /** conn.cmd(s): fire and forget. */
  function SendCmd(v: Vna, s: string): Vna {
    v.(sent := v.sent + [Cmd(s)])
  }

  function AsCmds(cmds: seq<string>): (r: seq<Msg>)
    ensures |r| == |cmds| && forall i :: 0 <= i < |cmds| ==> r[i] == Cmd(cmds[i])
  {
    seq(|cmds|, i requires 0 <= i < |cmds| => Cmd(cmds[i]))
  }

  /** conn.cmd for each string, in order. */
  function SendCmds(v: Vna, cmds: seq<string>): (r: Vna)
    ensures r.replies == v.replies
    ensures r.sent == v.sent + AsCmds(cmds)
    decreases |cmds|
  {
    if |cmds| == 0 then v
    else
      var r := SendCmds(SendCmd(v, cmds[0]), cmds[1..]);
      AsCmdsCons(v.sent, cmds);
      r
  }

  lemma AsCmdsCons(sent: seq<Msg>, cmds: seq<string>)
    requires |cmds| > 0
    ensures (sent + [Cmd(cmds[0])]) + AsCmds(cmds[1..]) == sent + AsCmds(cmds)
  {
    AsCmdsHead(cmds);
    assert (sent + [Cmd(cmds[0])]) + AsCmds(cmds[1..]) == sent + ([Cmd(cmds[0])] + AsCmds(cmds[1..]));
  }

  lemma AsCmdsHead(cmds: seq<string>)
    requires |cmds| > 0
    ensures [Cmd(cmds[0])] + AsCmds(cmds[1..]) == AsCmds(cmds)
  {
    var rest := AsCmds(cmds[1..]);
    var lhs := [Cmd(cmds[0])] + rest;
    assert forall i :: 1 <= i < |cmds| ==> lhs[i] == rest[i - 1] == Cmd(cmds[i]);
    assert lhs == AsCmds(cmds);
  }

  /** conn.query(q); an instrument that has stopped answering is an error
      here (the driver's own behaviour is not part of this model). */
  function Ask(v: Vna, q: string): Result<Answer> {
    if |v.replies| == 0 then Err(InstrumentSilent)
    else Ok(Answer(v.replies[0], Vna(v.replies[1..], v.sent + [Query(q)])))
  }

  const FinishedQuery := ":VNA:ACQ:FIN?"
  const TraceQuery := ":VNA:TRACE:DATA? S21"

  /** How many answers in a row say the sweep is still running. */
  function Pending(replies: seq<string>): (k: nat)
    ensures k <= |replies|
    ensures forall i :: 0 <= i < k ==> replies[i] == "FALSE"
    ensures k < |replies| ==> replies[k] != "FALSE"
  {
    if |replies| > 0 && replies[0] == "FALSE" then 1 + Pending(replies[1..]) else 0
  }

  /** while conn.query(":VNA:ACQ:FIN?") == "FALSE": sleep */
  function AwaitSweep(v: Vna): (r: Result<Vna>)
    ensures r.Ok? <==> Pending(v.replies) < |v.replies|
    ensures r.Err? ==> r.error == InstrumentSilent
    ensures r.Ok? ==>
              var k := Pending(v.replies);
              && r.value.replies == v.replies[k + 1..]
              && r.value.sent == v.sent + Repeat(Query(FinishedQuery), k + 1)
    decreases |v.replies|
  {
    var a :- Ask(v, FinishedQuery);
    if a.text == "FALSE" then
      var r := AwaitSweep(a.vna);
      assert Pending(v.replies) == 1 + Pending(a.vna.replies);
      if r.Ok? then
        assert [Query(FinishedQuery)] + Repeat(Query(FinishedQuery), Pending(a.vna.replies) + 1)
               == Repeat(Query(FinishedQuery), Pending(v.replies) + 1);
        r
      else r
    else
      Ok(a.vna)
  }

  /** [pair[1] for pair in pairs]: the value column of a parsed trace. */
  function Values<F, T>(pairs: seq<(F, T)>): (r: seq<T>)
    ensures |r| == |pairs|
    ensures forall i :: 0 <= i < |pairs| ==> r[i] == pairs[i].1
  {
    if |pairs| == 0 then [] else [pairs[0].1] + Values(pairs[1..])
  }

  datatype Measured<T> = Measured(values: seq<T>, vna: Vna)

  /** What a finished acquisition hands back: the value column of the parsed
      trace (the reply after the last pending answer and the finished one),
      the replies left over, and the exact log of what was sent. */
  ghost predicate Delivered<F, T>(v: Vna, setup: seq<string>, parse: string -> seq<(F, T)>, m: Measured<T>)
    requires Pending(v.replies) + 2 <= |v.replies|
  {
    var k := Pending(v.replies);
    var pairs := parse(v.replies[k + 1]);
    && m.values == Values(pairs)
    && |m.values| == |pairs|
    && (forall i :: 0 <= i < |pairs| ==> m.values[i] == pairs[i].1)
    && m.vna.replies == v.replies[k + 2..]
    && m.vna.sent == v.sent + AsCmds(setup) + Repeat(Query(FinishedQuery), k + 1) + [Query(TraceQuery)]
  }

  /** Send the setup commands, wait for the sweep, fetch the S21 trace, parse
      it with the driver's parse_trace_data (a parameter here) and keep the
      value of each pair. */
  function Acquire<F, T>(v: Vna, setup: seq<string>, parse: string -> seq<(F, T)>): (r: Result<Measured<T>>)
    ensures r.Ok? <==> Pending(v.replies) + 2 <= |v.replies|
    ensures r.Ok? ==> Delivered(v, setup, parse, r.value)
  {
    var configured := SendCmds(v, setup);
    var done :- AwaitSweep(configured);
    var trace :- Ask(done, TraceQuery);
    Ok(Measured(Values(parse(trace.text)), trace.vna))
  }

  /** The trace replies of n acquisitions in a row, and the replies left
      after them; None when the script runs out first. Each acquisition
      consumes its pending answers, the finished answer and the trace. */
  function Acquisitions(replies: seq<string>, n: nat): (r: Option<(seq<string>, seq<string>)>)
    ensures r.Some? ==> |r.value.0| == n && |r.value.1| <= |replies|
    decreases n
  {
    if n == 0 then Some(([], replies))
    else
      var k := Pending(replies);
      if k + 2 <= |replies| then
        match Acquisitions(replies[k + 2..], n - 1)
        case None => None
        case Some(later) => Some(([replies[k + 1]] + later.0, later.1))
      else None
  }

  /** One more acquisition after n of them reads the next trace from what
      the n left over. */
  lemma {:induction false} AcquisitionsSnoc(replies: seq<string>, n: nat, traces: seq<string>, rest: seq<string>)
    requires Acquisitions(replies, n) == Some((traces, rest))
    requires Pending(rest) + 2 <= |rest|
    ensures Acquisitions(replies, n + 1)
            == Some((traces + [rest[Pending(rest) + 1]], rest[Pending(rest) + 2..]))
    decreases n
  {
    if n > 0 {
      var k := Pending(replies);
      var later := Acquisitions(replies[k + 2..], n - 1).value;
      AcquisitionsSnoc(replies[k + 2..], n - 1, later.0, later.1);
      assert traces == [replies[k + 1]] + later.0;
      assert [replies[k + 1]] + (later.0 + [rest[Pending(rest) + 1]])
             == traces + [rest[Pending(rest) + 1]];
    } else {
      var k := Pending(replies);
      assert Acquisitions(replies[k + 2..], 0) == Some(([], replies[k + 2..]));
      assert traces + [replies[k + 1]] == [replies[k + 1]] + [];
    }
  }

  /** n + 1 acquisitions answered means the first n were, and the
      instrument answers one more from what they leave. */
  lemma {:induction false} AcquisitionsPrefix(replies: seq<string>, n: nat)
    requires Acquisitions(replies, n + 1).Some?
    ensures Acquisitions(replies, n).Some?
    ensures var rest := Acquisitions(replies, n).value.1; Pending(rest) + 2 <= |rest|
    decreases n
  {
    var k := Pending(replies);
    if n > 0 {
      AcquisitionsPrefix(replies[k + 2..], n - 1);
    } else {
      assert Acquisitions(replies, 0) == Some(([], replies));
    }
  }

  /** A command line: a keyword, and its argument after one space if it has one. */
  function CommandLine(keyword: string, arg: Option<string>): string {
    match arg
    case None => keyword
    case Some(a) => keyword + " " + a
  }

  /** Command lines from parallel lists of keywords and arguments. */
  function CommandLines(keywords: seq<string>, args: seq<Option<string>>): (r: seq<string>)
    requires |keywords| == |args|
    ensures |r| == |keywords|
    ensures forall i :: 0 <= i < |r| ==> r[i] == CommandLine(keywords[i], args[i])
  {
    seq(|keywords|, i requires 0 <= i < |keywords| => CommandLine(keywords[i], args[i]))
  }

  /** The text of a command up to its first space. */
  function Keyword(cmd: string): string {
    cmd[..IndexOf(cmd, ' ')]
  }

  /** The text of a command after its first space, if it has one. */
  function Argument(cmd: string): Option<string> {
    var i := IndexOf(cmd, ' ');
    if i < |cmd| then Some(cmd[i + 1..]) else None
  }

  /** A command line splits back into its keyword and argument. */
  lemma CommandLineFields(keyword: string, arg: Option<string>)
    requires ' ' !in keyword
    ensures Keyword(CommandLine(keyword, arg)) == keyword
    ensures Argument(CommandLine(keyword, arg)) == arg
  {
    var cmd := CommandLine(keyword, arg);
    assert forall j :: 0 <= j < |keyword| ==> cmd[j] == keyword[j];
    if arg.Some? {
      assert cmd[|keyword|] == ' ';
      assert IndexOf(cmd, ' ') == |keyword|;
      assert cmd[..|keyword|] == keyword;
      assert cmd[|keyword| + 1..] == arg.value;
    }
  }

  /** Every line of a command list splits back into its keyword and argument. */
  lemma CommandLinesFields(keywords: seq<string>, args: seq<Option<string>>)
    requires |keywords| == |args|
    requires forall i :: 0 <= i < |keywords| ==> ' ' !in keywords[i]
    ensures forall i :: 0 <= i < |keywords| ==>
              && Keyword(CommandLines(keywords, args)[i]) == keywords[i]
              && Argument(CommandLines(keywords, args)[i]) == args[i]
  {
    forall i | 0 <= i < |keywords|
      ensures Keyword(CommandLines(keywords, args)[i]) == keywords[i]
      ensures Argument(CommandLines(keywords, args)[i]) == args[i]
    {
      CommandLineFields(keywords[i], args[i]);
    }
  }
}
